=== FILE: README.md ===
# barema.ai front end — a Dafny model

The barema.ai front end is a React application for Brazilian physicians applying
to medical residency programmes. Users upload proof-of-activity certificates,
review the data an AI extracted from them, and compare their curriculum with the
evaluation rubric ("barema") of each call for applications ("edital"). Every real
computation happens behind a REST API. What is left in the browser is a set of
decision and transformation rules inside components, plus a few small state
machines. This project models those rules as pure Dafny functions over immutable
datatypes and proves what they promise.

Boundaries are turned into parameters:

- **Server replies** are datatypes passed in: `Reply<R>`, `LoadReply`, `PollReply`, `Outcome`.
- **`localStorage`** is a `map<string, string>` (`Storage.Store`).
- **`JSON.parse` / `JSON.stringify`** are the function parameters `parse: string -> Option<U>`
  (`None` means it threw) and `encode: U -> string`.
- **`new Date(d).toISOString().split('T')[0]`** is `isoDay: string -> Option<string>`
  (`None` is the `RangeError` of an invalid date).
- **The `Date.now()-Math.random()` file ids** are `mkId: nat -> string`.
- **Navigation** is returned as a target path.

JavaScript truthiness is modelled explicitly in `Wrappers`:

- an empty string, `0`, `null` and `undefined` are falsy;
- `a || b` is `Or` / `OrReal`.

Modules follow the source files:

| module | source |
|---|---|
| `Records` | `src/types/index.ts` |
| `Storage`, `AuthProvider` | `src/contexts/AuthContext.tsx` |
| `AuthHook` | `src/hooks/useAuth.ts` |
| `Api` | `src/services/api.ts` |
| `Routes` | `src/App.tsx` |
| `Layout`, `Text` | `src/components/Layout.tsx` |
| `BatchProgress` | `src/components/BatchProgress.tsx` |
| `UserStore` | `src/contexts/UserContext.tsx` |
| `Curriculum` | `src/hooks/useCurriculum.ts` |
| `Counters`, `Dashboard` | `src/pages/Dashboard.tsx` |
| `Validation` | `src/pages/Validation.tsx` |
| `EdictDetail` | `src/pages/EdictDetail.tsx` |
| `Upload` | `src/pages/Upload.tsx` |
| `EdictUpload` | `src/pages/EdictUpload.tsx` |
| `Kyc` | `src/pages/KYC.tsx` |
| `LoginPage` | `src/pages/Login.tsx` |

The route table has no `/kyc` entry. After a sign-in by a user without a CRM, or
after any sign-up, the page sends the browser to `/kyc`. The catch-all route turns
that into `/login`, and the public-route guard then turns a signed-in user away to
`/dashboard`. So the profile form (`Kyc`) is modelled as written, but no route
mounts it; `LoginPage.RedirectsSettleOnDashboard` proves where the browser lands.

Three modules are shared libraries:

- `Seqs`: `Array.prototype.filter` and the counts built on it.
- `Buckets`: the "reduce into an object of arrays" idiom. Groups come out in order of first appearance, as an object's non-numeric string keys do, provided the key is not the name of an `Object.prototype` member such as `constructor`, `toString` or `__proto__`; see Left out. `Object.entries` lists integer-like keys first; see Left out for both users, `Curriculum.Derive` and `EdictDetail.GroupCriteria`.
- `Wrappers`: `Option` and the truthiness rules.

## Model

| member | source | states |
|---|---|---|
| Api.BaseUrl | src/services/api.ts:3 | The base URL is the environment value when it is set and non-empty, and `http://localhost:8000/api/v1` otherwise. |
| Api.BaseUrlIsStable | src/services/api.ts:3-10 | Configuring the resolved base URL explicitly changes nothing, and every endpoint URL is the base URL followed by the endpoint's path. |
| Api.InterceptRequest | src/services/api.ts:13-22 | `Authorization: Bearer <token>` is set exactly when a non-empty token is stored. `Content-Type` is removed exactly for FormData bodies. Every other header, the method, the path and the body are unchanged. |
| Api.InterceptRequestIdempotent | src/services/api.ts:13-22 | Running the request interceptor twice gives the same request as running it once. |
| Api.BearerTokenRecoverable | src/services/api.ts:14-17 | Stripping the `Bearer ` prefix from the header gives back the stored token. |
| Api.InterceptResponse | src/services/api.ts:25-35 | The reply is passed on unchanged, and a failure stays a rejection. A 401 (and only a 401) removes both session keys and redirects to `/login`. Otherwise storage is untouched. |
| Api.Call | src/services/api.ts:39-69 | A name the endpoint table does not define throws before any request. The caller sees an error with no response. A defined name yields the server's reply. |
| Api.PathDeterminesId | src/services/api.ts:47-65 | Within one id-carrying endpoint kind, equal paths mean equal ids. For example, two certificate ids give the same `/certificates/validate/`+id path only when they are equal. Paths of different kinds can coincide: deleting certificate `validate/x` uses the path of validating `x`. |
| Storage.ClearSession | src/contexts/AuthContext.tsx:54-55 | Removes `auth_token` and `user_data`. Every other key keeps its value. |
| Storage.SaveSession | src/contexts/AuthContext.tsx:48-49 | Writes the token and the serialised user under the two keys. Every other key is left alone. |
| Storage.Rehydrate | src/contexts/AuthContext.tsx:31-42 | A user is restored exactly when both keys hold non-empty strings and the snapshot parses. A snapshot that fails to parse removes both keys. Otherwise storage is untouched. |
| Storage.SaveThenRehydrate | src/contexts/AuthContext.tsx:47-51 | With a parser that inverts the serialiser, a saved session is read back as the same user. |
| Storage.ClearThenRehydrate | src/contexts/AuthContext.tsx:53-56 | After the keys are cleared, start-up finds nobody signed in. |
| AuthProvider.Mount | src/contexts/AuthContext.tsx:29-45 | Loading is off afterwards, whatever happened. The user is authenticated exactly when both keys are present and the snapshot parses. A parse failure clears both keys. |
| AuthProvider.Login | src/contexts/AuthContext.tsx:47-51 | Sets the user and writes both keys with the token and the serialised user. No other key changes. |
| AuthProvider.Logout | src/contexts/AuthContext.tsx:53-58 | The user is cleared and both keys are removed. Nothing else in storage or state changes. The provider navigates to `/login`. |
| AuthProvider.LogoutShowsLogin | src/contexts/AuthContext.tsx:53-58 | Once loading is over, the logout target resolves straight to the login page for the now anonymous session. |
| AuthProvider.LoginSurvivesReload | src/contexts/AuthContext.tsx:29-51 | After `login`, the next mount restores the same user. |
| AuthProvider.LogoutSurvivesReload | src/contexts/AuthContext.tsx:29-58 | After `logout`, the next mount is unauthenticated. |
| AuthHook.Mount | src/hooks/useAuth.ts:19-33 | Follows the same rehydration rule as the provider. Loading ends off with no error. |
| AuthHook.Login | src/hooks/useAuth.ts:35-52 | On success: the user is set, both keys are stored, the error is cleared, and nothing redirects. On failure the response interceptor runs first. A 401 (and only a 401) clears both keys and sends the browser to `/login`; any other failure leaves storage unchanged. The hook's user is never changed on failure. The error is the server's detail or `Erro ao fazer login`, which is also rethrown. Loading is off either way. |
| AuthHook.DeniedLoginReloadsAnonymous | src/hooks/useAuth.ts:39-48 | A login refused with a 401 sends the browser to `/login`, and the page it loads mounts with nobody signed in, whatever session was stored before. |
| AuthHook.Logout | src/hooks/useAuth.ts:54-58 | Removes both keys and the user. There is no navigation, and the other state fields are kept. |
| AuthHook.LoginSurvivesReload | src/hooks/useAuth.ts:19-44 | After a successful login, the next mount restores the user. |
| Routes.Protected | src/App.tsx:17-33 | Spinner exactly while loading. After loading: redirect to `/login` exactly when unauthenticated, otherwise the children. |
| Routes.Public | src/App.tsx:36-52 | Spinner exactly while loading. After loading: redirect to `/dashboard` exactly when authenticated, otherwise the children. |
| Routes.GuardsAreComplementary | src/App.tsx:28-32 | Once loading is over, exactly one of the two guards renders its children. |
| Routes.Resolve | src/App.tsx:60-91 | An unknown path redirects to `/login`. While loading, a known path shows the spinner. An unauthenticated user sees the login page on `/login` and is sent to `/login` from anywhere else. An authenticated user on `/login` or `/` is sent to `/dashboard` and sees the page any layout path names. |
| Routes.LayoutChild | src/App.tsx:78-85 | The layout's pages by path. None is `/`, `/login` or outside the root. `/edicts/<id>` is a detail page exactly for a non-empty, slash-free id other than `upload`, which names the static upload page. |
| Routes.EveryPathSettles | src/App.tsx:60-91 | There is no redirect loop: after loading, every path reaches a page within two redirects. An anonymous user sees the login page. A signed-in user sees the layout page the path names, and the dashboard for any other path. |
| Layout.Initials | src/components/Layout.tsx:25-30 | In the model the badge is 1 or 2 characters (see Left out). It is `DR` when the name has no word starts. Otherwise it is the upper-cased first two word-start characters. |
| Text.FirstLettersAreWordStarts | src/components/Layout.tsx:26-28 | `split(' ').map(n => n[0]).join('')` yields exactly the characters that start a word. |
| Text.JoinSplit | src/components/Layout.tsx:26 | Joining the pieces of `split(' ')` with single spaces gives back the string. |
| Text.SplitJoin | src/components/Layout.tsx:26 | Splitting space-free words joined by single spaces gives the words back. |
| Text.Split | src/components/Layout.tsx:26 | `split(' ')` yields at least one piece, and no piece holds a space. `Text.Join` is its inverse (see `Text.JoinSplit`). |
| Text.Upper | src/components/Layout.tsx:30 | `toUpperCase` keeps the length and maps every character by the one-character upper-case rule. |
| Layout.DisplayName | src/components/Layout.tsx:32 | The display name is the full name when it is non-empty, and `Dr. Usuário` otherwise. |
| Layout.NameAndBadgeAgree | src/components/Layout.tsx:25-33 | Without a name the badge reads `DR` under `Dr. Usuário`. A badge built from the name sits under that very name. |
| Layout.PlanCaption | src/components/Layout.tsx:33-82 | With no tier the caption is `Free`. The caption is `Premium` exactly when the tier is neither `free` nor `basic`. |
| Layout.FindTitle | src/components/Layout.tsx:97 | Finds the name of the first item whose href equals the path, or nothing when none does. |
| Layout.HeaderNamesTheActiveItem | src/components/Layout.tsx:52-97 | At most one navigation item is active. The header shows its name exactly when one is active. |
| BatchProgress.Receive | src/components/BatchProgress.tsx:38-52 | An OK reply replaces the status. A terminal one (completed or failed) stops polling, and it calls `onComplete` exactly when one was given. A non-OK reply or a fetch error changes nothing. |
| BatchProgress.Advance | src/components/BatchProgress.tsx:28-62 | A timer tick issues a request exactly while the effect polls with a non-empty batch id. The answer to a request in flight goes through `Receive` whether or not polling has stopped, because clearing the interval does not cancel it. With late answers dropped, an answer after the stop changes nothing. `BatchProgress.Run` applies a series of events. |
| BatchProgress.RequestsBoundCompletions | src/components/BatchProgress.tsx:28-62 | Every completion consumes the answer to an issued request. No request is issued once polling has stopped or with an empty batch id, and polling never restarts. After the stop, at most the requests then in flight can still complete. |
| BatchProgress.LateAnswerCompletesTwice | src/components/BatchProgress.tsx:30-61 | Written as in the source (see Findings). Two overlapping requests that both answer `completed` run `onComplete` twice; with late answers dropped it runs once. |
| BatchProgress.GuardedCompletesAtMostOnce | src/components/BatchProgress.tsx:28-62 | Corrected polling that drops late answers: `onComplete` runs at most once, and only if polling was on. |
| BatchProgress.CaptionMatchesTone | src/components/BatchProgress.tsx:72-109 | The caption and the colour split statuses into the same four classes. `Pendente` is exactly the non-terminal, non-processing case. |
| BatchProgress.Show | src/components/BatchProgress.tsx:163-192 | In-progress plus successful plus failed equals processed. The failures panel shows exactly when failed > 0, the error panel exactly with a non-empty message, and the completed panel exactly when the status is `completed`. |
| UserStore.Normalize | src/contexts/UserContext.tsx:55-60 | The status is `validation_status`, else `status`, else `pending`. The confidence is the extraction confidence when non-zero, else the old value. Every other field is unchanged. |
| UserStore.NormalizeIdempotent | src/contexts/UserContext.tsx:55-60 | Normalising a normalised certificate changes nothing. |
| UserStore.NormalizeAll | src/contexts/UserContext.tsx:55-60 | The list keeps its length and order, and entry i is the normalised entry i. |
| UserStore.NormalizeAllIdempotent | src/contexts/UserContext.tsx:55-60 | Normalising the list twice gives the same list as once. |
| UserStore.FetchCertificates | src/contexts/UserContext.tsx:51-67 | A failed fetch gives the empty list. Otherwise the result is the normalised response, with the empty list when the body is falsy. The body is taken to be a list (see Left out). |
| Counters.PendingCount | src/pages/Dashboard.tsx:25-27 | The number of certificates that are `pending` or `processing`. It is zero exactly when none is, and the whole list exactly when all are. |
| Counters.ValidatedCount | src/pages/Dashboard.tsx:54 | The number of `validated` certificates. It is zero exactly when none is, and the whole list exactly when all are. |
| Counters.PendingAndValidatedDisjoint | src/pages/Dashboard.tsx:25-54 | The pending count (`pending` or `processing`) and the validated count (`validated` only) together never exceed the number of certificates. |
| Curriculum.Fetch | src/hooks/useCurriculum.ts:20-31 | A reply replaces the list and clears the error, and a missing `certificates` field gives []. A failure keeps the list and sets the error to the detail or `Erro ao carregar certificados`. Loading is off either way. |
| Curriculum.FailureKeepsLoaded | src/hooks/useCurriculum.ts:20-31 | A failed refresh after a load keeps the loaded list, and a load after a failure clears the error. |
| Curriculum.Derive | src/hooks/useCurriculum.ts:37-46 | The total is the length, and the pending count is at most the total. `byCategory` has one entry per category, and each entry's count is exactly that category's certificates. Every certificate's category is present, and the counts sum to the total. |
| Dashboard.FirstWord | src/pages/Dashboard.tsx:42 | The greeting word has no space, is a prefix of the full name, and is followed by a space or by the end. |
| Dashboard.Render | src/pages/Dashboard.tsx:9-97 | A skeleton exactly while loading. Otherwise: the total, the pending and the validated counts; the score (`total_score` when non-zero, else 487); the first word of the name; and the `Validar Agora` action exactly when something is pending. |
| Validation.PendingQueue | src/pages/Validation.tsx:19-21 | The queue holds exactly the certificates whose status is `pending`, `processing` or `needs_review`. |
| Validation.PendingQueueAppend | src/pages/Validation.tsx:19-21 | The queue keeps list order: the queue of a concatenation is the concatenation of the queues. |
| Validation.DashboardPendingFitsQueue | src/pages/Validation.tsx:19-21 | The dashboard's pending count never exceeds the review queue's length. |
| Validation.Next | src/pages/Validation.tsx:166-170 | Advances exactly when the cursor is before the last position. Otherwise it stays. |
| Validation.Previous | src/pages/Validation.tsx:172-176 | Steps back exactly when the cursor is past the first position. Otherwise it stays. |
| Validation.NextPreviousInverse | src/pages/Validation.tsx:166-176 | Back undoes a step forward, and forward undoes a step back. |
| Validation.NavigateInBounds | src/pages/Validation.tsx:15-176 | From inside a non-empty queue, any sequence of next/previous presses keeps the cursor inside it. `Validation.Navigate` applies the presses one by one. |
| Validation.ConfirmAsWritten | src/pages/Validation.tsx:178-195 | Written as in the source (see Findings). No current certificate, or a failed approval, leaves the cursor unchanged. Otherwise the cursor becomes cursor+1 when not last, else 0 when the queue has more than one entry, else it stays. |
| Validation.ConfirmAsWrittenSkips | src/pages/Validation.tsx:185-191 | In the refreshed queue, the as-written cursor either skips the certificate that followed the confirmed one or is out of range. |
| Validation.ConfirmAsWrittenLeavesQueue | src/pages/Validation.tsx:185-191 | A concrete instance of the skip: with three entries and the cursor on the second, the refreshed queue has two entries and the cursor becomes 2, past its end. |
| Validation.Confirm | src/pages/Validation.tsx:178-195 | Corrected confirm. No certificate or a failed approval leaves the cursor unchanged, and otherwise it never moves forward. |
| Validation.ConfirmShowsFollower | src/pages/Validation.tsx:185-191 | In the refreshed queue, the corrected cursor is in range and shows the certificate that followed the confirmed one, or the first one after the last. |
| Validation.UpdateField | src/pages/Validation.tsx:138-142 | Defined exactly for an index inside the buffer. Same length; entry i's value is replaced and nothing else changes. |
| Validation.UpdateKeepsShape | src/pages/Validation.tsx:138-142 | Edits keep the seven labels and kinds. |
| Validation.UpdateLastWins | src/pages/Validation.tsx:138-142 | Of two edits to one field the last wins. Writing back the current value is the identity. |
| Validation.MapCertificate | src/pages/Validation.tsx:86-130 | Seven fields in fixed label order. Defaults are `''` for title and institution, 0 for hours and `Cursos` for category. Every confidence is the extraction confidence, or 0.5 when it is falsy. A date field is `''` when the date is absent. A date that fails to convert throws. |
| Validation.FindById | src/pages/Validation.tsx:82 | The first certificate with the id, or nothing exactly when none has it. |
| Validation.LoadCertificateData | src/pages/Validation.tsx:79-136 | A failed request, an unknown id or a throwing date leaves the buffer unchanged. Otherwise the buffer becomes the mapped certificate. A well-formed buffer stays well-formed. |
| Validation.TierOf | src/pages/Validation.tsx:144-164 | The three badge tiers partition the reals: at least 0.9, from 0.8 up to 0.9, and below 0.8. |
| Validation.TiersAgreeAndAreMonotone | src/pages/Validation.tsx:144-239 | A field is highlighted exactly when its badge is amber. A higher confidence never gets a lower tier. |
| EdictDetail.GroupCriteria | src/pages/EdictDetail.tsx:161-172 | A missing rubric or list gives no groups. Each slug has one group, and the groups have distinct keys and are never empty. Each group holds exactly its slug's criteria in rubric order. Every criterion has a group, and the sizes sum to the number of criteria. |
| Buckets.GroupBy | src/pages/EdictDetail.tsx:161-172 | The grouping idiom both pages use: groups have distinct keys and are never empty, each holds exactly the members with its key in input order, every element's key has a group, and the sizes sum to the input length. |
| EdictDetail.NoRubricNoGroups | src/pages/EdictDetail.tsx:162 | No edict, rubric or criteria list means no groups. |
| EdictDetail.SortCriteria | src/pages/EdictDetail.tsx:405-411 | The result is a permutation, ordered by display order and then by sub-order, with an absent sub-order read as 0. |
| EdictDetail.SortStable | src/pages/EdictDetail.tsx:405-411 | Criteria with equal keys keep their relative order, as `Array.prototype.sort` guarantees. |
| EdictDetail.BaremaTab | src/pages/EdictDetail.tsx:394-417 | One section per group, carrying the category name, the plural suffix, and the group sorted as a permutation. |
| EdictDetail.SectionCaptionsCountTheirCriteria | src/pages/EdictDetail.tsx:400-401 | Every section drops the plural suffix exactly when it lists one criterion. |
| EdictDetail.CategoryName | src/pages/EdictDetail.tsx:18-47 | The table entry when the slug is known, and the raw slug otherwise. |
| EdictDetail.CategoryNameTranslatesKnownSlugs | src/pages/EdictDetail.tsx:398 | The heading differs from the slug exactly for the nine known slugs. |
| EdictDetail.StatusLabel | src/pages/EdictDetail.tsx:227-229 | `published` shows `Publicado`, `draft` shows `Rascunho`, and any other status shows itself. |
| EdictDetail.StatusLabelCollisions | src/pages/EdictDetail.tsx:227-229 | Two statuses read the same exactly when they are equal or one is the other's translation, so `Publicado` cannot be told from `published`. |
| EdictDetail.CriteriaCount | src/pages/EdictDetail.tsx:271 | The list length, or 0 without a rubric or list. |
| EdictDetail.CountMatchesGroups | src/pages/EdictDetail.tsx:271-329 | The header count equals the number of criteria across all groups. |
| EdictDetail.PluralSuffix | src/pages/EdictDetail.tsx:401 | The suffix is empty exactly when the group has one criterion. |
| EdictDetail.PointsPrefix | src/pages/EdictDetail.tsx:104 | `+` exactly for positive points. |
| EdictDetail.PointsTextShowsSign | src/pages/EdictDetail.tsx:104 | For whole-number points, the text starts with `+` exactly for a gain and with `-` exactly for a loss, and different points never read the same. |
| EdictDetail.BadgeAsWritten | src/pages/EdictDetail.tsx:43-44 | Written as in the source (see Findings): the intended badge with a stray `0` appended exactly for a zero sub-order. |
| EdictDetail.BadgeAsWrittenCollides | src/pages/EdictDetail.tsx:43-44 | Written as in the source (see Findings). Criterion 3 with sub-order 0 shows `#30`, the badge of criterion 30. |
| EdictDetail.Badge | src/pages/EdictDetail.tsx:43-44 | Corrected badge: `#` and the display order, plus `.` and the sub-order exactly when the sub-order is non-zero. |
| EdictDetail.BadgeDistinguishesOrders | src/pages/EdictDetail.tsx:43-44 | A dot appears exactly with a sub-order. Badges without one identify the display order. |
| EdictDetail.DecimalInjective | src/pages/EdictDetail.tsx:43 | Different integers print differently. |
| Upload.HandleFiles | src/pages/Upload.tsx:59-80 | Files of the four allowed types are appended after the list, in order and as pending. No input, an empty input, or an input with nothing allowed leaves the list unchanged. |
| Upload.RemoveFile | src/pages/Upload.tsx:120-122 | Removes every entry with the id. Every other entry stays as often as it was queued. |
| Upload.RemoveFileDistributes | src/pages/Upload.tsx:120-122 | Removal works on each part of the list separately, so survivors keep their relative order. A single entry is kept or dropped by its id. |
| Upload.RemoveUndoesAdd | src/pages/Upload.tsx:59-122 | Removing a single file just added under a fresh id restores the list. |
| Upload.StartUpload | src/pages/Upload.tsx:124-130 | With no files nothing happens. Otherwise the page is uploading and every file is marked uploading. |
| Upload.FinishUpload | src/pages/Upload.tsx:149-173 | File i becomes processing exactly when result i says `completed` or `processing`, and failed otherwise (`Upload.StatusAfter`); its certificate id is result i's document id. A thrown error fails every file. Uploading ends, and ids and files are kept. |
| Upload.UploadSettlesEveryFile | src/pages/Upload.tsx:124-173 | After a whole upload, every file is processing or failed and keeps its id. |
| Upload.TilesPartition | src/pages/Upload.tsx:36-45 | The seven distinct tiles split the certificates: their counts sum to the total, with `Outros` covering unknown or absent categories. |
| Upload.LigasMirrorsEventos | src/pages/Upload.tsx:39-40 | `Ligas` and `Eventos` always show the same count. |
| Upload.GetCategoryMaxStatus | src/pages/Upload.tsx:47-57 | Nothing for an unknown category or when no edict is selected. Otherwise the first matching category's figures, with the limit reached exactly when current ≥ max. |
| Upload.MaxStatusIgnoresWhichEdict | src/pages/Upload.tsx:47-57 | Which edict is selected makes no difference, only whether one is. The figures are those of the category `FindCategory` finds. |
| Upload.FindCategory | src/pages/Upload.tsx:49 | The first category with the name, or nothing exactly when none has it. |
| EdictUpload.Choose | src/pages/EdictUpload.tsx:62-67 | A PDF replaces the file and clears the error. Anything else keeps the file and reports that only PDFs are accepted. |
| EdictUpload.Drop | src/pages/EdictUpload.tsx:56-68 | Only the first dropped file counts. |
| EdictUpload.FileInput | src/pages/EdictUpload.tsx:70-78 | The first selected file is treated like a drop. A missing file list is rejected. |
| EdictUpload.SelectionKeepsPdf | src/pages/EdictUpload.tsx:56-85 | Dropping, picking or choosing never leaves a non-PDF on the page, so only a PDF is sent. A PDF just picked is the file the upload sends, and picking the same file twice is picking it once. |
| EdictUpload.StartUpload | src/pages/EdictUpload.tsx:80-85 | No file means no-op. Otherwise uploading starts, with the error and result cleared. |
| EdictUpload.FinishUpload | src/pages/EdictUpload.tsx:91-103 | Success stores the result. Failure sets the server's detail or `Erro ao fazer upload do edital`. Uploading ends either way. |
| EdictUpload.RemoveFile | src/pages/EdictUpload.tsx:106-110 | File, result and error are reset. |
| EdictUpload.RemoveResets | src/pages/EdictUpload.tsx:106-110 | Outside an upload, removing the file restores the initial page. |
| EdictUpload.SubmitAsWritten | src/pages/EdictUpload.tsx:80-103 | Written as in the source (see Findings): no file means no-op, and otherwise the page behaves as the corrected upload does on a request that got no response. |
| EdictUpload.SubmitAsWrittenAlwaysFails | src/pages/EdictUpload.tsx:91 | Written as in the source (see Findings). Every upload ends in the fallback error with no result. |
| EdictUpload.Submit | src/pages/EdictUpload.tsx:80-103 | Corrected upload: no file means no-op, and otherwise the upload starts and finishes with the server's reply. |
| EdictUpload.SubmitReportsTheReply | src/pages/EdictUpload.tsx:80-103 | Corrected upload: success shows the parsed edict with no error, and a failure shows the server's detail. |
| Kyc.SetField | src/pages/KYC.tsx:22-25 | The named field takes the value, and the others are unchanged. |
| Kyc.UpdateData | src/pages/KYC.tsx:34-41 | A key for exactly the non-empty fields. `crm_state` is sent as `state`, and the address state overwrites it. The year is sent as `parseInt` of the text. No other keys. |
| Kyc.EmptyFormSendsNothing | src/pages/KYC.tsx:34-44 | The update object is empty exactly when every field of the form is empty. |
| Kyc.EditReachesUpdate | src/pages/KYC.tsx:22-41 | Emptying a field removes its key, and filling it adds the key. |
| Kyc.ErrorText | src/pages/KYC.tsx:49-50 | The detail, else the message, else `Erro ao atualizar perfil. Tente novamente.`. |
| Kyc.ServerTextReadsAsOnLogin | src/pages/KYC.tsx:49-50 | The profile form shows server text exactly as the sign-in page does. Without server text it shows its own fallback, which is none of the sign-in page's texts. |
| Kyc.Finish | src/pages/KYC.tsx:27-55 | Success goes to `/dashboard` with no error. Failure keeps the page and shows the error chain. Loading ends and the form is kept. |
| Kyc.SubmitAsWritten | src/pages/KYC.tsx:44 | Written as in the source (see Findings): the page behaves as the corrected submit does on a request that got no response. |
| Kyc.SubmitAsWrittenNeverSaves | src/pages/KYC.tsx:44 | Written as in the source (see Findings). Every submit ends in the fallback error and no navigation. |
| Kyc.Submit | src/pages/KYC.tsx:32-54 | Corrected submit: success goes to `/dashboard`, and a failure shows the error chain. |
| LoginPage.Edit | src/pages/Login.tsx:23-29 | The named field takes the value, the others are unchanged, and the error is cleared. |
| LoginPage.Toggle | src/pages/Login.tsx:314-323 | Flips the mode, clears the error, and empties all five fields. |
| LoginPage.ToggleTwice | src/pages/Login.tsx:314-323 | Toggling twice returns to the same mode with a blank form. |
| LoginPage.ErrorMessage | src/pages/Login.tsx:82-96 | The detail, else the message. Otherwise 401, 404 and 400 have their own texts, and any other status gets the generic text. |
| LoginPage.Fail | src/pages/Login.tsx:82-99 | A failed request: loading ends with the chosen message and the calls made so far are recorded. A 401 also clears the session and redirects to `/login`, as the response interceptor does first. Any other status leaves the provider alone. |
| LoginPage.Succeed | src/pages/Login.tsx:44-55 | A successful sign-in sets the user, stores the token and the serialised user, and redirects to the given target with the error cleared. |
| LoginPage.FallbacksFollowStatus | src/pages/Login.tsx:88-96 | Without server text the message depends only on the status, and each specific text identifies its status. |
| LoginPage.LoginRedirect | src/pages/Login.tsx:52-55 | `/kyc` exactly when the user has no CRM, otherwise `/dashboard`. |
| LoginPage.RedirectsSettleOnDashboard | src/pages/Login.tsx:52-80 | With no `/kyc` route, both the sign-in and the sign-up redirects settle on the dashboard for a signed-in user, whether or not the user has a CRM. |
| LoginPage.Submit | src/pages/Login.tsx:31-100 | Sign-in posts the credentials. Sign-up posts the five fields, then on success signs in with the same email and password. A successful sign-in sets the user and redirects by CRM, or to `/kyc` after sign-up. A failure shows the chosen message. |
| LoginPage.SignInSurvivesRedirect | src/pages/Login.tsx:44-55 | The full page load after a sign-in restores the same user. |
| LoginPage.WrongPasswordReloads | src/pages/Login.tsx:88-89 | A 401 without server text shows `Email ou senha incorretos`. The response interceptor also clears the session and sends the browser to `/login`. |

## Left out

- Rendering: JSX, CSS classes, icons, the spinner markup, and the empty-queue screen of the validation page.
- Timers: the two-second interval appears only as the order of `BatchProgress.Tick` events. The `setTimeout` that clears the upload list or navigates to `/edicts` is not modelled. `BatchProgress.Run` does not model an effect re-run caused by a new `onComplete` identity, which would issue an extra immediate poll.
- Dates: `Date` parsing and formatting are the `isoDay` parameter; the clock arithmetic of the edicts list is not modelled.
- Floating-point display maths: percentages, file sizes, progress widths. Confidences and scores are exact reals, and NaN is not modelled.
- EdictDetail.BadgeDistinguishesOrders: takes `display_order` and `sub_order` to be integers printed in plain decimal, though they are JavaScript numbers. Non-integer orders and magnitudes of 1e21 or more are not modelled. JavaScript prints those with a `.` (`1.5` or `1.5e+21`), so their badge shows a dot with no sub-order. `EdictDetail.Badge`, `EdictDetail.BadgeAsWritten` and `EdictDetail.DecimalInjective` share this assumption.
- EdictDetail.PointsTextShowsSign: covers whole-number points printed in plain decimal only, so below 1e21 in magnitude. Fractional points and exponent notation are not modelled.
- Drag handling: the `isDragging` flag and the `relatedTarget` containment checks.
- Mock and static data:
  - the profile and edicts-list pages;
  - the mock user;
  - the mock validation fields shown when the queue is empty;
  - the mock rubric of the upload page, which `Upload.GetCategoryMaxStatus` takes as a parameter.
- `JSON.parse`, `JSON.stringify` and `parseInt` are parameters or symbolic values (`Kyc.YearOf`). A snapshot that parses to a non-object (for example `null`) is not modelled.
- Layout.Initials: its bound of one or two characters rests on `Text.Upper`. In JavaScript `toUpperCase` runs after the cut to two characters, so the name `ß ß` gives the four-character `SSSS`.
- Text.Upper: upper-cases one character at a time. It does not model `ß`→`SS`, other multi-character upper-case forms, letters outside Latin-1, or surrogate halves from `n[0]` on astral characters.
- EdictDetail.GroupCriteria: returns groups in order of first appearance. `Object.entries` would list integer-like slugs first, in numeric order; the category slugs in use are not integer-like.
- Curriculum.Derive: returns categories as a list in order of first appearance. `Object.entries` would list integer-like keys first. A missing category is counted under `"undefined"`; the model does not distinguish a `null` category, which JavaScript keys as `"null"`.
- Upload.HandleFiles: the ids come from `mkId`. Their uniqueness, which `Date.now()-Math.random()` makes only likely, is not assumed.
- Upload.FinishUpload: assumes the list still holds the files that were sent. Files added or removed while the request is pending would be matched to results by position, and that case is not modelled.
- UserStore.FetchCertificates: treats the body as a certificate list. The curriculum hook reads `certificates` from the body of the same endpoint. If the body is that object, `.map` throws, every successful fetch yields the empty list, and the validation queue stays empty. That case is not modelled.
- Validation.LoadCertificateData: treats the response body as the certificate list the code expects. A body of another shape makes `find` throw; that is caught and leaves the buffer unchanged, as does a `None` body here.
- LoginPage.ErrorMessage: a `detail` that is not a string (such as a validation-error array) is not modelled.
- Routes.Resolve: react-router's case-insensitive matching and trailing-slash handling are not modelled; paths are matched exactly.
- Api.Call: models the `TypeError` an undefined endpoint raises. The request bodies themselves and axios's URL joining are not modelled.
- Api.InterceptRequest: header names are exact map keys. axios matches header names case-insensitively, so a `content-type` header differing only in case is not removed here.
- The HTTP transport, `window.location` reloads and the react-router navigation stack are represented only by the target path returned.
- The response interceptor is composed only into the sign-in flows: `AuthHook.Login`, `LoginPage.Fail` and `LoginPage.Submit`. `Curriculum.Fetch`, `UserStore.FetchCertificates`, `Validation.LoadCertificateData`, and the approval behind `Validation.ConfirmAsWritten` and `Validation.Confirm`, also go through `api`. A 401 on any of them clears both session keys and reloads `/login` as `Api.InterceptResponse` states, but these members model only the page state and return neither the storage nor that redirect.
- Curriculum.Derive: counts a category named after an `Object.prototype` member as an ordinary key. The source does not. For `constructor` or `toString`, `acc[category] || 0` reads the inherited function, so the count becomes a string such as `"function Object() { [native code] }1"`. For `__proto__`, the assignment is ignored and the category vanishes from the counts.
- EdictDetail.GroupCriteria: groups a slug named after an `Object.prototype` member, such as `constructor`, `toString` or `__proto__`, as an ordinary key. The source does not. `!acc[category]` is false for it, so `acc[category].push` throws and the rubric tab fails to render. Slugs come from the parsed edict and are not restricted.
- EdictDetail.CategoryName: returns the slug for a slug named after an `Object.prototype` member. The source does not: `CATEGORY_NAMES[slug] || slug` yields the inherited function, which React does not render as text.

## Findings

| source | as written | input that shows it | evidently intended | confidence | as-written member | corrected member |
|---|---|---|---|---|---|---|
| src/pages/Validation.tsx:185-191 | After an approval and refresh, the cursor advances by one, using the queue length from before the refresh. | Queue [a, b, c], cursor on b, approval succeeds. The refreshed queue is [a, c] and the cursor becomes 2, so no certificate is shown and c is never offered. From a, the cursor lands on c and skips b. | The cursor lands on the certificate that followed the confirmed one. | not executed; medium — assumes the API stops listing an approved certificate as pending | Validation.ConfirmAsWrittenSkips | Validation.ConfirmShowsFollower |
| src/pages/EdictUpload.tsx:91 | Calls `endpoints.uploadEdict`, which the endpoint table (src/services/api.ts:39-69) does not define. | Any chosen PDF. The call throws a `TypeError` before a request, and the page shows `Erro ao fazer upload do edital`. | The edict is sent and the parser's reply is shown. | not executed; high | EdictUpload.SubmitAsWrittenAlwaysFails | EdictUpload.SubmitReportsTheReply |
| src/pages/KYC.tsx:44 | Calls `endpoints.updateUser`, which the endpoint table does not define. | Any submit, once a route mounts the page (src/App.tsx:58-90 has none). The page shows `Erro ao atualizar perfil. Tente novamente.` and never reaches `/dashboard`. | The profile update is sent and success goes to `/dashboard`. | not executed; high | Kyc.SubmitAsWrittenNeverSaves | Kyc.Submit |
| src/pages/EdictDetail.tsx:43-44 | `{criterion.sub_order && ...}` evaluates to the number 0 for a zero sub-order, and React prints it. | display_order 3, sub_order 0: the badge reads `#30`, the same as criterion 30 with no sub-order. | `#3`: no suffix for a zero sub-order. | not executed; medium — only when the API sends a zero sub-order | EdictDetail.BadgeAsWrittenCollides | EdictDetail.BadgeDistinguishesOrders |
| src/components/BatchProgress.tsx:30-61 | Clearing the interval does not cancel a request already in flight, and its answer is handled whether or not polling has stopped. | A status request slower than two seconds overlaps the next poll. Both answer `completed`, and `onComplete` runs twice. | `onComplete` runs once, when the batch finishes. | not executed; medium — needs a status request slower than the polling interval | BatchProgress.LateAnswerCompletesTwice | BatchProgress.GuardedCompletesAtMostOnce |

=== FILE: api.dfy ===
/** The HTTP client boundary (`src/services/api.ts`): the base URL, the request
    interceptor that adds the bearer token, the response interceptor that ends
    the session on 401, and the endpoint table. */
module Api {
  import opened Wrappers
  import opened Records
  import opened Storage

  /** Base URL used when `VITE_API_URL` is unset or empty. */
  const DefaultBaseUrl: string := "http://localhost:8000/api/v1"

  /** `import.meta.env.VITE_API_URL || DefaultBaseUrl` */
  function BaseUrl(env: Option<string>): (r: string)
    ensures Truthy(env) ==> r == env.value
    ensures !Truthy(env) ==> r == DefaultBaseUrl
    ensures r != ""
  {
    Or(env, DefaultBaseUrl)
  }

  /** Configuring the resolved base URL explicitly changes nothing, and every
      endpoint's URL extends the base URL with the endpoint's path. */
  lemma BaseUrlIsStable(env: Option<string>, e: Endpoint)
    ensures BaseUrl(Some(BaseUrl(env))) == BaseUrl(env)
    ensures BaseUrl(env) <= Url(BaseUrl(env), e) && Url(BaseUrl(env), e)[|BaseUrl(env)|..] == Path(e)
  {
  }

  datatype Method = GET | POST | PATCH | DELETE

  /** What a request carries; only whether it is `FormData` matters here. */
  datatype Body = NoBody | JsonBody | FormDataBody

  type Headers = map<string, string>

  const ContentType: string := "Content-Type"
  const Authorization: string := "Authorization"
  const BearerPrefix: string := "Bearer "

  /** Headers every request of the shared client starts with. */
  const DefaultHeaders: Headers := map[ContentType := "application/json"]

  datatype Request = Request(verb: Method, path: string, headers: Headers, body: Body)

  /** The request interceptor: add `Authorization: Bearer <token>` when a non-empty
      token is stored, and drop `Content-Type` from `FormData` bodies so the browser
      can set the multipart boundary. Nothing else changes. */
  function InterceptRequest(req: Request, st: Store): (r: Request)
    ensures r.verb == req.verb && r.path == req.path && r.body == req.body
    ensures Truthy(Get(st, TokenKey)) ==>
              Authorization in r.headers && r.headers[Authorization] == BearerPrefix + st[TokenKey]
    ensures !Truthy(Get(st, TokenKey)) ==>
              (Authorization in r.headers <==> Authorization in req.headers) &&
              (Authorization in r.headers ==> r.headers[Authorization] == req.headers[Authorization])
    ensures req.body.FormDataBody? ==> ContentType !in r.headers
    ensures !req.body.FormDataBody? ==>
              (ContentType in r.headers <==> ContentType in req.headers) &&
              (ContentType in r.headers ==> r.headers[ContentType] == req.headers[ContentType])
    ensures forall h :: h != Authorization && h != ContentType ==>
              (h in r.headers <==> h in req.headers) &&
              (h in r.headers ==> r.headers[h] == req.headers[h])
  {
    var token := Get(st, TokenKey);
    var withAuth := if Truthy(token) then req.headers[Authorization := BearerPrefix + token.value] else req.headers;
    var hs := if req.body.FormDataBody? then withAuth - {ContentType} else withAuth;
    req.(headers := hs)
  }

  /** Running the request interceptor a second time changes nothing. */
  lemma InterceptRequestIdempotent(req: Request, st: Store)
    ensures InterceptRequest(InterceptRequest(req, st), st) == InterceptRequest(req, st)
  {
  }

  /** The token can be read back from the header the interceptor wrote. */
  lemma BearerTokenRecoverable(req: Request, st: Store)
    requires Truthy(Get(st, TokenKey))
    ensures InterceptRequest(req, st).headers[Authorization][|BearerPrefix|..] == st[TokenKey]
  {
  }

  /** A settled request as the caller sees it. */
  datatype Reply<R> = Success(response: R) | Failure(err: HttpError)

  /** What the response interceptor hands back: the reply (a failure stays a
      rejection), the storage afterwards, and where the page is sent, if anywhere. */
  datatype Intercepted<R> = Intercepted(reply: Reply<R>, store: Store, redirect: Option<string>)

  const LoginPath: string := "/login"

  /** The response interceptor: successes pass through; a 401 clears the session
      and sends the page to `/login`; every failure is still rejected unchanged. */
  function InterceptResponse<R>(reply: Reply<R>, st: Store): (r: Intercepted<R>)
    ensures r.reply == reply
    ensures r.redirect.Some? <==> reply.Failure? && reply.err.Status() == Some(401)
    ensures r.redirect.Some? ==> r.redirect.value == LoginPath && r.store == ClearSession(st)
    ensures r.redirect.None? ==> r.store == st
  {
    if reply.Failure? && reply.err.Status() == Some(401) then
      Intercepted(reply, ClearSession(st), Some(LoginPath))
    else Intercepted(reply, st, None)
  }

  /** The endpoints `api.ts` defines. */
  datatype Endpoint =
    | Register
    | Login
    | Profile
    | ListCertificates
    | CertificateForValidation(id: string)
    | CertificatePreview(id: string)
    | UploadCertificateBatch
    | UpdateCertificate(id: string)
    | DeleteCertificate(id: string)
    | GlobalRanking
    | RegionalRanking(state: string)
    | ListEdicts
    | EdictById(id: string)
    | EvaluateEdict(id: string)
    | ExportLattes

  /** The property names of the `endpoints` object. Pages that call a name missing
      here call `undefined`, which throws a `TypeError` before any request. */
  const EndpointNames: set<string> := {
    "register", "login", "profile",
    "getCertificates", "getCertificateForValidation", "getCertificatePreview",
    "uploadCertificate", "updateCertificate", "deleteCertificate",
    "getGlobalRanking", "getRegionalRanking",
    "getEdicts", "getEdictById", "evaluateEdict",
    "exportLattes"
  }

  /** Calling `endpoints[name]` with the reply the server would give: a missing
      name throws before any request, so the caller sees an error with no response. */
  function Call<R>(name: string, serverReply: Reply<R>): (r: Reply<R>)
    ensures name !in EndpointNames ==> r == Failure(NoResponse)
    ensures name in EndpointNames ==> r == serverReply
  {
    if name in EndpointNames then serverReply else Failure(NoResponse)
  }

  function MethodOf(e: Endpoint): Method {
    match e
    case Register => POST
    case Login => POST
    case UploadCertificateBatch => POST
    case EvaluateEdict(_) => POST
    case UpdateCertificate(_) => PATCH
    case DeleteCertificate(_) => DELETE
    case _ => GET
  }

  /** Path of each endpoint, relative to the base URL. */
  function Path(e: Endpoint): string {
    match e
    case Register => "/users/register"
    case Login => "/users/login"
    case Profile => "/users/profile"
    case ListCertificates => "/certificates/"
    case CertificateForValidation(id) => "/certificates/validate/" + id
    case CertificatePreview(id) => "/certificates/" + id + "/preview"
    case UploadCertificateBatch => "/certificates/upload/batch"
    case UpdateCertificate(id) => "/certificates/validate/" + id
    case DeleteCertificate(id) => "/certificates/" + id
    case GlobalRanking => "/ranking/global"
    case RegionalRanking(state) => "/ranking/regional/" + state
    case ListEdicts => "/edicts/"
    case EdictById(id) => "/edicts/" + id
    case EvaluateEdict(id) => "/edicts/" + id + "/evaluate"
    case ExportLattes => "/lattes/export"
  }

  /** The certificate batch upload goes through plain `axios`, so neither
      interceptor runs for it: no bearer header and no 401 handling. */
  predicate UsesInterceptors(e: Endpoint) {
    !e.UploadCertificateBatch?
  }

  /** Full URL of a request. */
  function Url(base: string, e: Endpoint): string {
    base + Path(e)
  }

  /** Same endpoint kind, possibly different id. */
  predicate SameKind(a: Endpoint, b: Endpoint) {
    match (a, b)
    case (CertificateForValidation(_), CertificateForValidation(_)) => true
    case (CertificatePreview(_), CertificatePreview(_)) => true
    case (UpdateCertificate(_), UpdateCertificate(_)) => true
    case (DeleteCertificate(_), DeleteCertificate(_)) => true
    case (RegionalRanking(_), RegionalRanking(_)) => true
    case (EdictById(_), EdictById(_)) => true
    case (EvaluateEdict(_), EvaluateEdict(_)) => true
    case _ => a == b
  }

  /** Cancelling a common prefix and suffix. */
  lemma CancelAround(pre: string, a: string, b: string, post: string)
    requires pre + a + post == pre + b + post
    ensures a == b
  {
    var x := pre + a + post;
    assert |a| == |b|;
    assert a == x[|pre|..|pre| + |a|];
    assert b == x[|pre|..|pre| + |b|];
  }

  /** Within one endpoint kind, the path determines the id, so requests for two
      different certificates or edicts never share a URL. */
  lemma PathDeterminesId(a: Endpoint, b: Endpoint)
    requires SameKind(a, b) && Path(a) == Path(b)
    ensures a == b
  {
    match a
    case CertificateForValidation(x) => CancelAround("/certificates/validate/", x, b.id, "");
    case CertificatePreview(x) => CancelAround("/certificates/", x, b.id, "/preview");
    case UpdateCertificate(x) => CancelAround("/certificates/validate/", x, b.id, "");
    case DeleteCertificate(x) => CancelAround("/certificates/", x, b.id, "");
    case RegionalRanking(x) => CancelAround("/ranking/regional/", x, b.state, "");
    case EdictById(x) => CancelAround("/edicts/", x, b.id, "");
    case EvaluateEdict(x) => CancelAround("/edicts/", x, b.id, "/evaluate");
    case _ =>
  }
}

=== FILE: auth_hook.dfy ===
/** The stand-alone authentication hook (`useAuth` in `src/hooks`): the same
    start-up rule as the provider, plus a login that performs the credential
    request itself and reports its error. */
module AuthHook {
  import opened Wrappers
  import opened Records
  import opened Storage
  import Api

  /** What the hook exposes besides its operations. */
  datatype HookState = HookState(user: Option<User>, loading: bool, error: Option<string>)

  /** The hook's state together with the storage it reads and writes. */
  datatype Hook = Hook(state: HookState, store: Store)

  /** `isAuthenticated: !!user` */
  predicate IsAuthenticated(s: HookState) {
    s.user.Some?
  }

  /** The mount effect: restore the session from storage, then stop loading. */
  function Mount(st: Store, parse: string -> Option<User>): (h: Hook)
    ensures !h.state.loading && h.state.error.None?
    ensures IsAuthenticated(h.state) <==>
              Truthy(Get(st, TokenKey)) && Truthy(Get(st, UserKey)) && parse(st[UserKey]).Some?
    ensures IsAuthenticated(h.state) ==> h.state.user == parse(st[UserKey]) && h.store == st
    ensures !IsAuthenticated(h.state) && Truthy(Get(st, TokenKey)) && Truthy(Get(st, UserKey)) ==>
              TokenKey !in h.store && UserKey !in h.store
    ensures !(Truthy(Get(st, TokenKey)) && Truthy(Get(st, UserKey))) ==> h.store == st
  {
    var r := Rehydrate(st, parse);
    Hook(HookState(r.user, false, None), r.store)
  }

  /** The reply to `POST /users/login`. */
  datatype LoginReply = Granted(accessToken: string, user: User) | Denied(err: HttpError)

  /** Message shown and rethrown when the login request fails. */
  const LoginFailed: string := "Erro ao fazer login"

  /** The hook's `login` after the request settled: the hook, what it rethrows
      (`None` when it returns normally), and where the response interceptor sends
      the browser. */
  datatype LoginResult = LoginResult(hook: Hook, thrown: Option<string>, redirect: Option<string>)

  /** `endpoints.login` goes through `api`, so a refusal meets the response
      interceptor before the hook's `catch`: a 401 has already cleared the session
      and sent the browser to `/login` when the hook records its message. The hook
      never calls `setUser` on failure. */
  function Login(h: Hook, reply: LoginReply, encode: User -> string): (r: LoginResult)
    ensures !r.hook.state.loading
    ensures reply.Granted? ==>
              && r.hook.state.user == Some(reply.user)
              && r.hook.state.error.None? && r.thrown.None? && r.redirect.None?
              && r.hook.store == SaveSession(h.store, reply.accessToken, encode(reply.user))
    ensures reply.Denied? ==>
              && r.hook.state.user == h.state.user
              && r.thrown == r.hook.state.error
              && r.hook.state.error == Some(Or(reply.err.Detail(), LoginFailed))
              && (r.redirect.Some? <==> reply.err.Status() == Some(401))
              && (reply.err.Status() == Some(401) ==>
                    r.redirect == Some(Api.LoginPath) && r.hook.store == ClearSession(h.store))
              && (reply.err.Status() != Some(401) ==> r.hook.store == h.store)
  {
    match reply
    case Granted(token, u) =>
      LoginResult(Hook(HookState(Some(u), false, None), SaveSession(h.store, token, encode(u))), None, None)
    case Denied(err) =>
      var failed: Api.Reply<User> := Api.Failure(err);
      var i := Api.InterceptResponse(failed, h.store);
      var msg := Or(err.Detail(), LoginFailed);
      LoginResult(Hook(HookState(h.state.user, false, Some(msg)), i.store), Some(msg), i.redirect)
  }

  /** The hook's `logout`: clear both keys and the user; no navigation. */
  function Logout(h: Hook): (r: Hook)
    ensures !IsAuthenticated(r.state)
    ensures TokenKey !in r.store && UserKey !in r.store
    ensures forall k :: k != TokenKey && k != UserKey ==> Get(r.store, k) == Get(h.store, k)
    ensures r.state.loading == h.state.loading && r.state.error == h.state.error
  {
    Hook(HookState(None, h.state.loading, h.state.error), ClearSession(h.store))
  }

  /** A successful hook login is restored by the next mount, provided the server
      issued a non-empty token. */
  lemma LoginSurvivesReload(h: Hook, reply: LoginReply, encode: User -> string, parse: string -> Option<User>)
    requires Codec(encode, parse)
    requires reply.Granted? && reply.accessToken != ""
    ensures Mount(Login(h, reply, encode).hook.store, parse).state.user == Some(reply.user)
  {
  }

  /** A refused 401 login leaves nobody to restore: the page the interceptor loads
      mounts anonymous, whatever the session was before. */
  lemma DeniedLoginReloadsAnonymous(h: Hook, err: HttpError, encode: User -> string, parse: string -> Option<User>)
    requires err.Status() == Some(401)
    ensures var r := Login(h, Denied(err), encode);
            r.redirect == Some(Api.LoginPath) && !IsAuthenticated(Mount(r.hook.store, parse).state)
  {
  }
}

=== FILE: auth_provider.dfy ===
/** The session provider (`AuthContext`): the signed-in user, a loading flag, and
    login/logout over the two session keys of `localStorage`. */
module AuthProvider {
  import opened Wrappers
  import opened Records
  import opened Storage
  import Routes

  /** What the provider exposes besides its operations. */
  datatype AuthState = AuthState(user: Option<User>, isLoading: bool)

  /** The provider's state together with the storage it owns. */
  datatype Provider = Provider(state: AuthState, store: Store)

  /** `isAuthenticated: !!user` */
  predicate IsAuthenticated(s: AuthState) {
    s.user.Some?
  }

  /** State before the mount effect has run. */
  const Initial: AuthState := AuthState(None, true)

  /** The mount effect: restore the session from storage, then stop loading,
      whatever happened. `parse` stands for `JSON.parse` (`None`: it threw). */
  function Mount(st: Store, parse: string -> Option<User>): (p: Provider)
    ensures !p.state.isLoading
    ensures IsAuthenticated(p.state) <==>
              Truthy(Get(st, TokenKey)) && Truthy(Get(st, UserKey)) && parse(st[UserKey]).Some?
    ensures IsAuthenticated(p.state) ==> p.state.user == parse(st[UserKey]) && p.store == st
    ensures !IsAuthenticated(p.state) && Truthy(Get(st, TokenKey)) && Truthy(Get(st, UserKey)) ==>
              TokenKey !in p.store && UserKey !in p.store
    ensures !(Truthy(Get(st, TokenKey)) && Truthy(Get(st, UserKey))) ==> p.store == st
  {
    var r := Rehydrate(st, parse);
    Provider(AuthState(r.user, false), r.store)
  }

  /** `login(token, userData)`: persist both keys and set the user. `encode` stands
      for `JSON.stringify`. */
  function Login(p: Provider, token: string, u: User, encode: User -> string): (r: Provider)
    ensures r.state.user == Some(u) && IsAuthenticated(r.state)
    ensures r.state.isLoading == p.state.isLoading
    ensures Get(r.store, TokenKey) == Some(token) && Get(r.store, UserKey) == Some(encode(u))
    ensures forall k :: k != TokenKey && k != UserKey ==> Get(r.store, k) == Get(p.store, k)
  {
    Provider(AuthState(Some(u), p.state.isLoading), SaveSession(p.store, token, encode(u)))
  }

  /** Where `logout` navigates. */
  const LogoutTarget: string := "/login"

  /** The provider after `logout`, and the path it navigates to. */
  datatype LoggedOut = LoggedOut(provider: Provider, navigateTo: string)

  /** `logout()`: remove both keys and the user, then navigate to `/login`. */
  function Logout(p: Provider): (r: LoggedOut)
    ensures !IsAuthenticated(r.provider.state)
    ensures TokenKey !in r.provider.store && UserKey !in r.provider.store
    ensures forall k :: k != TokenKey && k != UserKey ==> Get(r.provider.store, k) == Get(p.store, k)
    ensures r.provider.state.isLoading == p.state.isLoading
    ensures r.navigateTo == LogoutTarget
  {
    LoggedOut(Provider(AuthState(None, p.state.isLoading), ClearSession(p.store)), LogoutTarget)
  }

  /** After a logout the router shows the login page at once: the target is the
      public `/login` route, which an anonymous session renders without a redirect. */
  lemma LogoutShowsLogin(p: Provider)
    requires !p.state.isLoading
    ensures var r := Logout(p);
            Routes.Resolve(r.navigateTo, Routes.Auth(r.provider.state.isLoading, IsAuthenticated(r.provider.state)))
            == Routes.Show(Routes.LoginPage)
  {
  }

  /** A login survives a page reload: the next mount restores the same user. */
  lemma LoginSurvivesReload(p: Provider, token: string, u: User, encode: User -> string, parse: string -> Option<User>)
    requires Codec(encode, parse)
    requires token != ""
    ensures Mount(Login(p, token, u, encode).store, parse).state.user == Some(u)
  {
  }

  /** A logout survives a page reload: the next mount finds nobody signed in. */
  lemma LogoutSurvivesReload(p: Provider, parse: string -> Option<User>)
    ensures !IsAuthenticated(Mount(Logout(p).provider.store, parse).state)
  {
  }
}

=== FILE: batch_progress.dfy ===
/** The batch progress panel (`src/components/BatchProgress.tsx`): what one poll
    reply does to the panel's state, the gating of further polls, and the status
    captions. The two-second timer is modelled by its ticks: `Run` takes the
    ticks and the answers in the order they happen. */
module BatchProgress {
  import opened Wrappers

  /** The batch status record the status endpoint returns. */
  datatype BatchStatus = BatchStatus(
    id: string,
    status: string,
    progress: real,
    total: int,
    processed: int,
    successful: int,
    failed: int,
    errorMessage: Option<string>)

  /** The component's state: the last status received and whether polling is on. */
  datatype Poller = Poller(status: Option<BatchStatus>, isPolling: bool)

  const Initial: Poller := Poller(None, true)

  /** The effect issues polls only for a non-empty batch id while polling is on. */
  predicate ShouldPoll(batchId: string, p: Poller) {
    batchId != "" && p.isPolling
  }

  /** A poll's outcome: a non-2xx reply, a thrown fetch, or the parsed status. */
  datatype PollReply = NotOk | FetchError | Ok(data: BatchStatus)

  predicate IsTerminal(status: string) {
    status == "completed" || status == "failed"
  }

  /** The state after one reply, and whether `onComplete` was invoked. */
  datatype Step = Step(poller: Poller, completed: bool)

  /** One poll reply: an OK reply replaces the status, and a terminal one stops
      polling and invokes `onComplete` when given; anything else changes nothing. */
  function Receive(p: Poller, reply: PollReply, hasCallback: bool): (r: Step)
    ensures reply.Ok? ==> r.poller.status == Some(reply.data)
    ensures !reply.Ok? ==> r.poller == p && !r.completed
    ensures r.poller.isPolling <==> p.isPolling && !(reply.Ok? && IsTerminal(reply.data.status))
    ensures r.completed <==> reply.Ok? && IsTerminal(reply.data.status) && hasCallback
  {
    match reply
    case Ok(data) =>
      if IsTerminal(data.status) then Step(Poller(Some(data), false), hasCallback)
      else Step(p.(status := Some(data)), false)
    case _ => Step(p, false)
  }

  /** What the panel sees over time: a timer tick (the immediate poll when the
      effect starts, or one of the two-second polls), or the answer to a request
      still in flight. */
  datatype Event = Tick | Answer(reply: PollReply)

  /** The panel's state together with the requests in flight, the requests issued
      so far, and how many times `onComplete` ran. */
  datatype Trace = Trace(poller: Poller, inFlight: nat, issued: nat, completions: nat)

  /** One event. A tick issues a request only while the effect polls; clearing the
      interval does not cancel a request already sent, so its answer is still
      handled by `Receive` even after polling stopped. With `dropLate` set, an
      answer that arrives after polling stopped is ignored instead, as an effect
      whose cleanup marks its pending requests stale would do. */
  function Advance(batchId: string, t: Trace, e: Event, hasCallback: bool, dropLate: bool): (r: Trace)
    ensures e.Tick? ==> r.poller == t.poller && r.completions == t.completions
    ensures e.Tick? ==> (r.issued == t.issued + 1 <==> ShouldPoll(batchId, t.poller))
    ensures e.Tick? && !ShouldPoll(batchId, t.poller) ==> r == t
    ensures e.Answer? ==> r.issued == t.issued
    ensures e.Answer? && t.inFlight == 0 ==> r == t
    ensures e.Answer? && t.inFlight > 0 ==> r.inFlight == t.inFlight - 1
    ensures e.Answer? && t.inFlight > 0 && !(dropLate && !t.poller.isPolling) ==>
              r.poller == Receive(t.poller, e.reply, hasCallback).poller &&
              r.completions == t.completions + (if Receive(t.poller, e.reply, hasCallback).completed then 1 else 0)
    ensures dropLate && !t.poller.isPolling ==> r.poller == t.poller && r.completions == t.completions
  {
    match e
    case Tick =>
      if ShouldPoll(batchId, t.poller) then t.(inFlight := t.inFlight + 1, issued := t.issued + 1) else t
    case Answer(reply) =>
      if t.inFlight == 0 then t
      else if dropLate && !t.poller.isPolling then t.(inFlight := t.inFlight - 1)
      else
        var s := Receive(t.poller, reply, hasCallback);
        Trace(s.poller, t.inFlight - 1, t.issued, t.completions + (if s.completed then 1 else 0))
  }

  /** The state after a series of events. */
  function Run(batchId: string, t: Trace, events: seq<Event>, hasCallback: bool, dropLate: bool): Trace
    decreases |events|
  {
    if events == [] then t
    else Run(batchId, Advance(batchId, t, events[0], hasCallback, dropLate), events[1..], hasCallback, dropLate)
  }

  /** Every completion consumes the answer to an issued request, no request is
      issued once polling stopped (or with an empty batch id), polling never
      restarts, and a completion always leaves polling off. So once polling
      stopped, at most the requests then in flight can still complete. */
  lemma {:induction false} RequestsBoundCompletions(batchId: string, t: Trace, events: seq<Event>, hasCallback: bool, dropLate: bool)
    ensures var r := Run(batchId, t, events, hasCallback, dropLate);
            t.issued <= r.issued && t.completions <= r.completions &&
            r.completions + r.inFlight + t.issued <= t.completions + t.inFlight + r.issued
    ensures var r := Run(batchId, t, events, hasCallback, dropLate);
            (!t.poller.isPolling || batchId == "") ==> r.issued == t.issued
    ensures var r := Run(batchId, t, events, hasCallback, dropLate);
            !t.poller.isPolling ==> !r.poller.isPolling && r.completions <= t.completions + t.inFlight
    ensures var r := Run(batchId, t, events, hasCallback, dropLate);
            r.completions > t.completions ==> !r.poller.isPolling
    decreases |events|
  {
    if events != [] {
      var t' := Advance(batchId, t, events[0], hasCallback, dropLate);
      RequestsBoundCompletions(batchId, t', events[1..], hasCallback, dropLate);
    }
  }

  /** With late answers dropped, the completion callback runs at most once, and
      only if polling was on. */
  lemma {:induction false} GuardedCompletesAtMostOnce(batchId: string, t: Trace, events: seq<Event>, hasCallback: bool)
    ensures var r := Run(batchId, t, events, hasCallback, true);
            r.completions <= t.completions + (if t.poller.isPolling then 1 else 0)
    ensures var r := Run(batchId, t, events, hasCallback, true);
            !t.poller.isPolling ==> r.poller == t.poller && r.completions == t.completions
    decreases |events|
  {
    if events != [] {
      var t' := Advance(batchId, t, events[0], hasCallback, true);
      GuardedCompletesAtMostOnce(batchId, t', events[1..], hasCallback);
    }
  }

  /** A finished batch. */
  const Done: BatchStatus := BatchStatus("b", "completed", 100.0, 1, 1, 1, 0, None)

  /** As written, a first request slower than the two-second interval overlaps the
      next one; when both answer `completed`, `onComplete` runs twice. Dropping
      late answers runs it once. */
  lemma LateAnswerCompletesTwice()
    ensures var events := [Tick, Tick, Answer(Ok(Done)), Answer(Ok(Done))];
            Run("b", Trace(Initial, 0, 0, 0), events, true, false).completions == 2 &&
            Run("b", Trace(Initial, 0, 0, 0), events, true, true).completions == 1
  {
    var events := [Tick, Tick, Answer(Ok(Done)), Answer(Ok(Done))];
    var stopped := Poller(Some(Done), false);
    var start := Trace(Initial, 0, 0, 0);
    var one := Trace(Initial, 1, 1, 0);
    var two := Trace(Initial, 2, 2, 0);
    var late := [Answer(Ok(Done))];
    assert events[1..] == [Tick] + [Answer(Ok(Done))] + late;
    assert Run("b", start, events, true, false) == Run("b", one, events[1..], true, false);
    assert Run("b", one, events[1..], true, false) == Run("b", two, events[2..], true, false);
    assert Run("b", two, events[2..], true, false) == Run("b", Trace(stopped, 1, 2, 1), late, true, false);
    assert Run("b", Trace(stopped, 1, 2, 1), late, true, false) == Trace(stopped, 0, 2, 2);
    assert Run("b", start, events, true, true) == Run("b", one, events[1..], true, true);
    assert Run("b", one, events[1..], true, true) == Run("b", two, events[2..], true, true);
    assert Run("b", two, events[2..], true, true) == Run("b", Trace(stopped, 1, 2, 1), late, true, true);
    assert Run("b", Trace(stopped, 1, 2, 1), late, true, true) == Trace(stopped, 0, 2, 1);
  }

  /** Four display classes of a batch status. */
  datatype Tone = Green | Red | Blue | Slate

  function StatusText(status: string): string {
    if status == "completed" then "Concluído"
    else if status == "failed" then "Falhou"
    else if status == "processing" then "Processando..."
    else "Pendente"
  }

  function StatusTone(status: string): Tone {
    if status == "completed" then Green
    else if status == "failed" then Red
    else if status == "processing" then Blue
    else Slate
  }

  /** Caption and colour classify statuses the same way: two statuses share a
      caption exactly when they share a colour, and every unknown status reads
      Pendente in slate. */
  lemma CaptionMatchesTone(s1: string, s2: string)
    ensures StatusText(s1) == StatusText(s2) <==> StatusTone(s1) == StatusTone(s2)
    ensures StatusText(s1) == "Pendente" <==> StatusTone(s1) == Slate
    ensures StatusText(s1) == "Pendente" <==> !IsTerminal(s1) && s1 != "processing"
  {
  }

  /** The figures and panels shown for a status. */
  datatype Panel = Panel(caption: string, tone: Tone, inProgress: int, showFailures: bool,
                         showCompleted: bool, showError: bool)

  function Show(s: BatchStatus): (r: Panel)
    ensures r.inProgress + s.successful + s.failed == s.processed
    ensures r.showFailures <==> s.failed > 0
    ensures r.showCompleted <==> s.status == "completed"
    ensures r.showError <==> Truthy(s.errorMessage)
    ensures r.caption == StatusText(s.status) && r.tone == StatusTone(s.status)
  {
    Panel(StatusText(s.status), StatusTone(s.status), s.processed - s.successful - s.failed,
          s.failed > 0, s.status == "completed", Truthy(s.errorMessage))
  }
}

=== FILE: buckets.dfy ===
/** Grouping a sequence by a key, the way the front end's
    `reduce((acc, x) => { (acc[k] ||= []).push(x); return acc }, {})` does it:
    one bucket per key, buckets in order of the key's first appearance, and
    every bucket holding its elements in their original order. */
module Buckets {
  import opened Seqs

  datatype Bucket<K, V> = Bucket(key: K, items: seq<V>)

  /** Reference definition of one group: the elements of `xs` whose key is `k`, in order. */
  function Members<K(==), V>(xs: seq<V>, key: V -> K, k: K): seq<V>
  {
    if xs == [] then []
    else
      var n := |xs| - 1;
      Members(xs[..n], key, k) + (if key(xs[n]) == k then [xs[n]] else [])
  }

  /** No key labels two buckets. */
  predicate DistinctKeys<K(==), V>(bs: seq<Bucket<K, V>>) {
    forall i, j :: 0 <= i < j < |bs| ==> bs[i].key != bs[j].key
  }

  /** Number of elements held over all buckets. */
  function TotalSize<K, V>(bs: seq<Bucket<K, V>>): nat {
    if bs == [] then 0 else |bs[0].items| + TotalSize(bs[1..])
  }

  /** Position of the bucket keyed `k`, or `|bs|` when there is none. */
  function IndexOf<K(==), V>(bs: seq<Bucket<K, V>>, k: K): (i: nat)
    ensures i <= |bs|
    ensures i < |bs| ==> bs[i].key == k
    ensures forall j :: 0 <= j < i ==> bs[j].key != k
  {
    if bs == [] then 0
    else if bs[0].key == k then 0
    else 1 + IndexOf(bs[1..], k)
  }

  /** One step of the reduce: append `v` to the bucket keyed `k`, opening a new
      bucket at the end when the key has not been seen. */
  function Add<K(==), V>(bs: seq<Bucket<K, V>>, k: K, v: V): seq<Bucket<K, V>> {
    var i := IndexOf(bs, k);
    if i < |bs| then bs[i := Bucket(k, bs[i].items + [v])]
    else bs + [Bucket(k, [v])]
  }

  /** Replacing one bucket changes the total by the difference of the two sizes. */
  lemma {:induction false} TotalSizeUpdate<K, V>(bs: seq<Bucket<K, V>>, i: nat, b: Bucket<K, V>)
    requires i < |bs|
    ensures TotalSize(bs[i := b]) + |bs[i].items| == TotalSize(bs) + |b.items|
  {
    if i > 0 {
      assert bs[i := b][1..] == bs[1..][i - 1 := b];
      TotalSizeUpdate(bs[1..], i - 1, b);
    }
  }

  /** Appending a bucket adds its size to the total. */
  lemma {:induction false} TotalSizeAppend<K, V>(bs: seq<Bucket<K, V>>, b: Bucket<K, V>)
    ensures TotalSize(bs + [b]) == TotalSize(bs) + |b.items|
  {
    if bs == [] {
      assert ([] + [b])[1..] == [];
    } else {
      assert (bs + [b])[1..] == bs[1..] + [b];
      TotalSizeAppend(bs[1..], b);
    }
  }

  /** A key no element carries has no members. */
  lemma {:induction false} MembersAbsent<K, V>(xs: seq<V>, key: V -> K, k: K)
    requires forall j :: 0 <= j < |xs| ==> key(xs[j]) != k
    ensures Members(xs, key, k) == []
  {
    if xs != [] {
      MembersAbsent(xs[..|xs| - 1], key, k);
    }
  }

  /** Members of a concatenation are the members of each part, in order. */
  lemma {:induction false} MembersAppend<K, V>(a: seq<V>, b: seq<V>, key: V -> K, k: K)
    ensures Members(a + b, key, k) == Members(a, key, k) + Members(b, key, k)
  {
    if b == [] {
      assert a + b == a;
    } else {
      var n := |b| - 1;
      assert (a + b)[..|a + b| - 1] == a + b[..n];
      assert (a + b)[|a + b| - 1] == b[n];
      MembersAppend(a, b[..n], key, k);
    }
  }

  /** Appending one element extends its key's members by it and no other key's. */
  lemma MembersSnoc<K, V>(xs: seq<V>, y: V, key: V -> K, k: K)
    ensures Members(xs + [y], key, k) == Members(xs, key, k) + (if key(y) == k then [y] else [])
  {
    assert (xs + [y])[..|xs|] == xs;
  }

  /** What grouping `xs` by `key` must produce: distinct keys, each bucket exactly
      the members of its key in input order, no empty bucket, every element's
      key present, and nothing lost or duplicated. */
  ghost predicate Grouping<K, V>(bs: seq<Bucket<K, V>>, xs: seq<V>, key: V -> K) {
    && DistinctKeys(bs)
    && (forall i :: 0 <= i < |bs| ==> bs[i].items == Members(xs, key, bs[i].key))
    && (forall i :: 0 <= i < |bs| ==> bs[i].items != [])
    && (forall j :: 0 <= j < |xs| ==> IndexOf(bs, key(xs[j])) < |bs|)
    && TotalSize(bs) == |xs|
  }

  /** One reduce step keeps `Grouping` true for the extended input. */
  lemma AddKeepsGrouping<K, V>(bs: seq<Bucket<K, V>>, xs: seq<V>, key: V -> K, v: V)
    requires Grouping(bs, xs, key)
    ensures Grouping(Add(bs, key(v), v), xs + [v], key)
  {
    if IndexOf(bs, key(v)) < |bs| {
      AddToOldBucket(bs, xs, key, v);
    } else {
      AddNewBucket(bs, xs, key, v);
    }
  }

  /** The step for a key already seen: its bucket grows by `v`, the others stay. */
  lemma AddToOldBucket<K, V>(bs: seq<Bucket<K, V>>, xs: seq<V>, key: V -> K, v: V)
    requires Grouping(bs, xs, key)
    requires IndexOf(bs, key(v)) < |bs|
    ensures Grouping(Add(bs, key(v), v), xs + [v], key)
  {
    var k := key(v);
    var i := IndexOf(bs, k);
    var ys := xs + [v];
    var bs' := bs[i := Bucket(k, bs[i].items + [v])];
    assert ys[..|ys| - 1] == xs;
    forall j | 0 <= j < |bs'|
      ensures bs'[j].items == Members(ys, key, bs'[j].key)
    {
      if j != i {
        assert bs'[j] == bs[j] && bs[j].key != k;
      }
    }
    forall j | 0 <= j < |ys|
      ensures IndexOf(bs', key(ys[j])) < |bs'|
    {
      if j < |xs| {
        assert ys[j] == xs[j];
        var t := IndexOf(bs, key(xs[j]));
        assert bs'[t].key == key(xs[j]);
      } else {
        assert bs'[i].key == k;
      }
    }
    TotalSizeUpdate(bs, i, Bucket(k, bs[i].items + [v]));
  }

  /** The step for a new key: `v` opens a bucket of its own at the end. */
  lemma AddNewBucket<K, V>(bs: seq<Bucket<K, V>>, xs: seq<V>, key: V -> K, v: V)
    requires Grouping(bs, xs, key)
    requires IndexOf(bs, key(v)) == |bs|
    ensures Grouping(Add(bs, key(v), v), xs + [v], key)
  {
    var k := key(v);
    var ys := xs + [v];
    var bs' := bs + [Bucket(k, [v])];
    assert ys[..|ys| - 1] == xs;
    forall m | 0 <= m < |xs|
      ensures key(xs[m]) != k
    {
      assert IndexOf(bs, key(xs[m])) < |bs|;
    }
    MembersAbsent(xs, key, k);
    assert bs'[|bs|].items == Members(ys, key, k);
    forall j | 0 <= j < |ys|
      ensures IndexOf(bs', key(ys[j])) < |bs'|
    {
      if j < |xs| {
        assert ys[j] == xs[j];
        var t := IndexOf(bs, key(xs[j]));
        assert bs'[t].key == key(xs[j]);
      } else {
        assert bs'[|bs|].key == k;
      }
    }
    TotalSizeAppend(bs, Bucket(k, [v]));
  }

  /** Grouping `xs` by `key`, as the reduce over `xs` builds it. */
  function GroupBy<K(==), V>(xs: seq<V>, key: V -> K): (bs: seq<Bucket<K, V>>)
    ensures DistinctKeys(bs)
    ensures forall i :: 0 <= i < |bs| ==> bs[i].items == Members(xs, key, bs[i].key)
    ensures forall i :: 0 <= i < |bs| ==> bs[i].items != []
    ensures forall j :: 0 <= j < |xs| ==> IndexOf(bs, key(xs[j])) < |bs|
    ensures TotalSize(bs) == |xs|
  {
    if xs == [] then []
    else
      var n := |xs| - 1;
      var prev := GroupBy(xs[..n], key);
      assert xs == xs[..n] + [xs[n]];
      AddKeepsGrouping(prev, xs[..n], key, xs[n]);
      Add(prev, key(xs[n]), xs[n])
  }
}

=== FILE: counters.dfy ===
/** Certificate counts shared by the dashboard and the curriculum hook. */
module Counters {
  import opened Wrappers
  import opened Records
  import opened Seqs

  /** Counted as awaiting validation: status `pending` or `processing` (not `needs_review`). */
  predicate AwaitsValidation(c: Certificate) {
    c.status == Some("pending") || c.status == Some("processing")
  }

  predicate IsValidated(c: Certificate) {
    c.status == Some("validated")
  }

  /** The dashboard's pending figure: how many certificates await validation. It is
      zero exactly when none does, and the whole list exactly when all do. */
  function PendingCount(cs: seq<Certificate>): (n: nat)
    ensures n == |Filter(cs, AwaitsValidation)| && n <= |cs|
    ensures n == 0 <==> forall i :: 0 <= i < |cs| ==> !AwaitsValidation(cs[i])
    ensures n == |cs| <==> forall i :: 0 <= i < |cs| ==> AwaitsValidation(cs[i])
  {
    CountBounds(cs, AwaitsValidation);
    Count(cs, AwaitsValidation)
  }

  /** The dashboard's validated figure: how many certificates are validated. It is
      zero exactly when none is, and the whole list exactly when all are. */
  function ValidatedCount(cs: seq<Certificate>): (n: nat)
    ensures n == |Filter(cs, IsValidated)| && n <= |cs|
    ensures n == 0 <==> forall i :: 0 <= i < |cs| ==> !IsValidated(cs[i])
    ensures n == |cs| <==> forall i :: 0 <= i < |cs| ==> IsValidated(cs[i])
  {
    CountBounds(cs, IsValidated);
    Count(cs, IsValidated)
  }

  /** No certificate is both pending and validated, so the two counts together never
      exceed the number of certificates. */
  lemma PendingAndValidatedDisjoint(cs: seq<Certificate>)
    ensures PendingCount(cs) + ValidatedCount(cs) <= |cs|
  {
    CountDisjoint(cs, AwaitsValidation, IsValidated);
  }
}

=== FILE: curriculum.dfy ===
/** The curriculum hook (`src/hooks/useCurriculum.ts`): the certificate list it
    fetches and the figures it derives from it. */
module Curriculum {
  import opened Wrappers
  import opened Records
  import opened Seqs
  import opened Buckets
  import opened Counters

  datatype HookState = HookState(certificates: seq<Certificate>, loading: bool, error: Option<string>)

  const Initial: HookState := HookState([], true, None)

  /** Outcome of `GET /certificates/?limit=100`: the body's `certificates` field
      (possibly absent), or the request's error. */
  datatype Reply = Loaded(certificates: Option<seq<Certificate>>) | LoadFailed(err: HttpError)

  const LoadError: string := "Erro ao carregar certificados"

  /** `fetchCertificates`: a reply replaces the list (an absent field gives the empty
      list) and clears the error; a failure keeps the list and reports the server's
      detail or the fallback message. Loading is off either way. */
  function Fetch(s: HookState, reply: Reply): (r: HookState)
    ensures !r.loading
    ensures reply.Loaded? ==> r.certificates == reply.certificates.GetOr([]) && r.error.None?
    ensures reply.LoadFailed? ==> r.certificates == s.certificates
    ensures reply.LoadFailed? && Truthy(reply.err.Detail()) ==> r.error == reply.err.Detail()
    ensures reply.LoadFailed? && !Truthy(reply.err.Detail()) ==> r.error == Some(LoadError)
  {
    match reply
    case Loaded(cs) => HookState(cs.GetOr([]), false, None)
    case LoadFailed(err) => HookState(s.certificates, false, Some(Or(err.Detail(), LoadError)))
  }

  /** A failed refresh after a successful load keeps the loaded list on screen, and a
      later successful load clears the error. */
  lemma FailureKeepsLoaded(s: HookState, cs: Option<seq<Certificate>>, err: HttpError)
    ensures Fetch(Fetch(s, Loaded(cs)), LoadFailed(err)).certificates == cs.GetOr([])
    ensures Fetch(Fetch(s, LoadFailed(err)), Loaded(cs)).error.None?
  {
  }

  /** The key a certificate is tallied under: its category, or the string
      `"undefined"` that JavaScript uses when the category is missing. */
  function CategoryKey(c: Certificate): string {
    match c.category
    case Some(k) => k
    case None => "undefined"
  }

  datatype CategoryCount = CategoryCount(category: string, count: nat)

  function SumCounts(tally: seq<CategoryCount>): nat {
    if tally == [] then 0 else tally[0].count + SumCounts(tally[1..])
  }

  function Tally(bs: seq<Bucket<string, Certificate>>): (t: seq<CategoryCount>)
    ensures |t| == |bs|
    ensures forall i :: 0 <= i < |bs| ==> t[i] == CategoryCount(bs[i].key, |bs[i].items|)
    ensures SumCounts(t) == TotalSize(bs)
  {
    if bs == [] then [] else [CategoryCount(bs[0].key, |bs[0].items|)] + Tally(bs[1..])
  }

  /** The figures the hook derives. */
  datatype Figures = Figures(totalCertificates: nat, pendingValidation: nat, byCategory: seq<CategoryCount>)

  /** `totalCertificates`, `pendingValidation` and `byCategory`: one entry per
      category in order of first appearance, each counting exactly the certificates
      of that category, the counts adding up to the total. */
  function Derive(cs: seq<Certificate>): (f: Figures)
    ensures f.totalCertificates == |cs|
    ensures f.pendingValidation == PendingCount(cs) && f.pendingValidation <= f.totalCertificates
    ensures forall i, j :: 0 <= i < j < |f.byCategory| ==> f.byCategory[i].category != f.byCategory[j].category
    ensures forall i :: 0 <= i < |f.byCategory| ==>
              f.byCategory[i].count == |Members(cs, CategoryKey, f.byCategory[i].category)| > 0
    ensures forall j :: 0 <= j < |cs| ==>
              exists i :: 0 <= i < |f.byCategory| && f.byCategory[i].category == CategoryKey(cs[j])
    ensures SumCounts(f.byCategory) == |cs|
  {
    var bs := GroupBy(cs, CategoryKey);
    var t := Tally(bs);
    forall j | 0 <= j < |cs|
      ensures exists i :: 0 <= i < |t| && t[i].category == CategoryKey(cs[j])
    {
      var i := IndexOf(bs, CategoryKey(cs[j]));
      assert t[i].category == CategoryKey(cs[j]);
    }
    Figures(|cs|, PendingCount(cs), t)
  }
}

=== FILE: dashboard.dfy ===
/** The dashboard page (`src/pages/Dashboard.tsx`): the greeting and the three
    summary cards. The ranking card's figures are fixed placeholders and are not
    modelled. */
module Dashboard {
  import opened Wrappers
  import opened Records
  import opened Text
  import opened Counters

  /** Score shown when the user has none (or zero). */
  const FallbackScore: real := 487.0

  /** `name.split(' ')[0]`: the name up to its first space. */
  function FirstWord(name: string): (r: string)
    ensures ' ' !in r
    ensures r <= name
    ensures |r| == |name| || name[|r|] == ' '
  {
    SplitHead(name);
    Split(name)[0]
  }

  datatype View =
    | Skeleton
    | Summary(total: nat, validated: nat, pending: nat, score: real,
              greeting: Option<string>, offerValidation: bool)

  /** The page while the store loads, and the summary once it has. */
  function Render(user: Option<User>, certs: seq<Certificate>, loading: bool): (v: View)
    ensures loading <==> v.Skeleton?
    ensures v.Summary? ==> v.total == |certs| && v.pending == PendingCount(certs) && v.validated == ValidatedCount(certs)
    ensures v.Summary? ==> v.validated + v.pending <= v.total
    ensures v.Summary? ==> (v.offerValidation <==> v.pending > 0)
    ensures v.Summary? && user.Some? && TruthyReal(user.value.totalScore) ==> v.score == user.value.totalScore.value
    ensures v.Summary? && !(user.Some? && TruthyReal(user.value.totalScore)) ==> v.score == FallbackScore
    ensures v.Summary? ==> (v.greeting.Some? <==> user.Some? && user.value.fullName.Some?)
    ensures v.Summary? && v.greeting.Some? ==> v.greeting.value == FirstWord(user.value.fullName.value)
  {
    if loading then Skeleton
    else
      var pending := PendingCount(certs);
      PendingAndValidatedDisjoint(certs);
      var score := if user.Some? then OrReal(user.value.totalScore, FallbackScore) else FallbackScore;
      var greeting := if user.Some? && user.value.fullName.Some? then Some(FirstWord(user.value.fullName.value)) else None;
      Summary(|certs|, ValidatedCount(certs), pending, score, greeting, pending > 0)
  }
}

=== FILE: edict_detail.dfy ===
/** The edict detail page (`src/pages/EdictDetail.tsx`): the rubric's criteria
    grouped by category and ordered inside each group, and the small labels the
    page derives from an edict. */
module EdictDetail {
  import opened Wrappers
  import opened Records
  import opened Buckets

  // ---------------------------------------------------------------- grouping

  function Slug(c: Criterion): string {
    c.categorySlug
  }

  /** The rubric's criteria, when the edict, its rubric and its list are all present. */
  function CriteriaOf(edict: Option<Edict>): seq<Criterion> {
    if edict.Some? && edict.value.baremaConfig.Some? && edict.value.baremaConfig.value.criteria.Some?
    then edict.value.baremaConfig.value.criteria.value
    else []
  }

  /** `groupedCriteria`: one group per category slug, in order of first appearance;
      each group holds exactly that category's criteria in rubric order; the group
      sizes add up to the number of criteria. A missing edict, rubric or list gives
      no groups. */
  function GroupCriteria(edict: Option<Edict>): (gs: seq<Bucket<string, Criterion>>)
    ensures CriteriaOf(edict) == [] ==> gs == []
    ensures DistinctKeys(gs)
    ensures forall i :: 0 <= i < |gs| ==> gs[i].items == Members(CriteriaOf(edict), Slug, gs[i].key) != []
    ensures forall j :: 0 <= j < |CriteriaOf(edict)| ==>
              IndexOf(gs, CriteriaOf(edict)[j].categorySlug) < |gs|
    ensures TotalSize(gs) == |CriteriaOf(edict)|
  {
    GroupBy(CriteriaOf(edict), Slug)
  }

  /** A missing rubric or list groups nothing. */
  lemma NoRubricNoGroups(e: Edict)
    requires e.baremaConfig.None? || e.baremaConfig.value.criteria.None?
    ensures GroupCriteria(Some(e)) == [] && GroupCriteria(None) == []
  {
  }

  // ----------------------------------------------------------------- ordering

  /** The comparator's key: display order, then sub-order with an absent one read as 0. */
  function SortKey(c: Criterion): (int, int) {
    (c.displayOrder, c.subOrder.GetOr(0))
  }

  /** The comparator does not put `a` after `b`. */
  predicate KeyLe(a: (int, int), b: (int, int)) {
    a.0 < b.0 || (a.0 == b.0 && a.1 <= b.1)
  }

  predicate Sorted(s: seq<Criterion>) {
    forall i, j :: 0 <= i < j < |s| ==> KeyLe(SortKey(s[i]), SortKey(s[j]))
  }

  /** Inserts `x` after every element whose key is not greater than its own. */
  function Insert(x: Criterion, r: seq<Criterion>): (t: seq<Criterion>)
    requires Sorted(r)
    ensures Sorted(t)
    ensures multiset(t) == multiset(r) + multiset{x}
    ensures |t| == |r| + 1
    decreases |r|
  {
    if r == [] then [x]
    else
      var l := r[|r| - 1];
      if KeyLe(SortKey(l), SortKey(x)) then r + [x]
      else
        var front := r[..|r| - 1];
        assert r == front + [l];
        var t := Insert(x, front);
        BoundedByLast(t, front, x, l);
        t + [l]
  }

  /** Whatever holds `front`'s elements and `x`, all keyed no later than `l`, is
      keyed no later than `l` throughout. */
  lemma BoundedByLast(t: seq<Criterion>, front: seq<Criterion>, x: Criterion, l: Criterion)
    requires multiset(t) == multiset(front) + multiset{x}
    requires forall i :: 0 <= i < |front| ==> KeyLe(SortKey(front[i]), SortKey(l))
    requires KeyLe(SortKey(x), SortKey(l))
    ensures forall i :: 0 <= i < |t| ==> KeyLe(SortKey(t[i]), SortKey(l))
  {
    forall i | 0 <= i < |t|
      ensures KeyLe(SortKey(t[i]), SortKey(l))
    {
      assert t[i] in multiset(t);
      if t[i] != x {
        assert t[i] in multiset(front);
        var k :| 0 <= k < |front| && front[k] == t[i];
      }
    }
  }

  /** Inserting adds `x` at the end of its key's run, so each key's criteria keep
      their relative order. */
  lemma {:induction false} InsertStable(x: Criterion, r: seq<Criterion>, k: (int, int))
    requires Sorted(r)
    ensures Members(Insert(x, r), SortKey, k) ==
            Members(r, SortKey, k) + (if SortKey(x) == k then [x] else [])
    decreases |r|
  {
    if r != [] {
      var l := r[|r| - 1];
      var front := r[..|r| - 1];
      if KeyLe(SortKey(l), SortKey(x)) {
        InsertUnfolds(x, r);
        MembersSnoc(r, x, SortKey, k);
      } else {
        InsertUnfolds(x, r);
        InsertStable(x, front, k);
        MembersSnoc(Insert(x, front), l, SortKey, k);
        assert r == front + [l];
        MembersSnoc(front, l, SortKey, k);
      }
    }
  }

  /** The two ways one insertion step goes on a non-empty list. */
  lemma InsertUnfolds(x: Criterion, r: seq<Criterion>)
    requires Sorted(r) && r != []
    ensures KeyLe(SortKey(r[|r| - 1]), SortKey(x)) ==> Insert(x, r) == r + [x]
    ensures !KeyLe(SortKey(r[|r| - 1]), SortKey(x)) ==>
              Sorted(r[..|r| - 1]) && Insert(x, r) == Insert(x, r[..|r| - 1]) + [r[|r| - 1]]
  {
  }

  /** `criteria.sort(...)`, a stable sort (as `Array.prototype.sort` is) by
      display order, then sub-order. */
  function SortCriteria(s: seq<Criterion>): (r: seq<Criterion>)
    ensures Sorted(r)
    ensures multiset(r) == multiset(s)
    ensures |r| == |s|
    decreases |s|
  {
    if s == [] then []
    else
      var front := s[..|s| - 1];
      assert s == front + [s[|s| - 1]];
      Insert(s[|s| - 1], SortCriteria(front))
  }

  /** Stability: criteria with equal keys come out in the order they went in. */
  lemma {:induction false} SortStable(s: seq<Criterion>, k: (int, int))
    ensures Members(SortCriteria(s), SortKey, k) == Members(s, SortKey, k)
    decreases |s|
  {
    if s != [] {
      var front := s[..|s| - 1];
      SortStable(front, k);
      InsertStable(s[|s| - 1], SortCriteria(front), k);
    }
  }

  /** One category's section on the rubric tab. */
  datatype Section = Section(slug: string, heading: string, plural: string, criteria: seq<Criterion>)

  /** The rubric tab: one section per group, each sorted. */
  function BaremaTab(edict: Option<Edict>): (ss: seq<Section>)
    ensures |ss| == |GroupCriteria(edict)|
    ensures forall i :: 0 <= i < |ss| ==>
              var g := GroupCriteria(edict)[i];
              ss[i].slug == g.key && ss[i].heading == CategoryName(g.key) &&
              ss[i].plural == PluralSuffix(|g.items|) &&
              Sorted(ss[i].criteria) && multiset(ss[i].criteria) == multiset(g.items)
  {
    var gs := GroupCriteria(edict);
    seq(|gs|, i requires 0 <= i < |gs| =>
      Section(gs[i].key, CategoryName(gs[i].key), PluralSuffix(|gs[i].items|), SortCriteria(gs[i].items)))
  }

  /** Every section's caption counts the criteria it lists: the plural suffix is
      dropped exactly for a section with one criterion. */
  lemma SectionCaptionsCountTheirCriteria(edict: Option<Edict>)
    ensures forall s :: s in BaremaTab(edict) ==> (s.plural == "" <==> |s.criteria| == 1)
  {
    var ss, gs := BaremaTab(edict), GroupCriteria(edict);
    forall s | s in ss ensures s.plural == "" <==> |s.criteria| == 1 {
      var i :| 0 <= i < |ss| && ss[i] == s;
      CaptionCounts(s, gs[i].items);
    }
  }

  /** A section whose caption was computed from a group, and whose list holds that
      group's criteria, captions its own list. */
  lemma CaptionCounts(s: Section, items: seq<Criterion>)
    requires s.plural == PluralSuffix(|items|) && multiset(s.criteria) == multiset(items)
    ensures s.plural == "" <==> |s.criteria| == 1
  {
    assert |multiset(s.criteria)| == |multiset(items)|;
  }

  // ------------------------------------------------------------------- labels

  const CategoryNames: map<string, string> := map[
    "formacao_academica" := "Formação Acadêmica",
    "titulos_certificados" := "Títulos e Certificados",
    "atividades_academicas" := "Atividades Acadêmicas",
    "publicacoes" := "Publicações",
    "premios_distincoes" := "Prêmios e Distinções",
    "experiencia_profissional" := "Experiência Profissional",
    "atividades_extensao" := "Atividades de Extensão",
    "idiomas" := "Idiomas",
    "outros" := "Outros"]

  /** `CATEGORY_NAMES[slug] || slug`. */
  function CategoryName(slug: string): (name: string)
    ensures slug in CategoryNames ==> name == CategoryNames[slug]
    ensures slug !in CategoryNames ==> name == slug
  {
    if slug in CategoryNames && CategoryNames[slug] != "" then CategoryNames[slug] else slug
  }

  /** The heading differs from the slug exactly for the nine known categories. */
  lemma CategoryNameTranslatesKnownSlugs(slug: string)
    ensures CategoryName(slug) != slug <==> slug in CategoryNames
  {
  }

  /** The status badge: `Publicado`, `Rascunho`, or the raw status. */
  function StatusLabel(status: string): (shown: string)
    ensures status == "published" ==> shown == "Publicado"
    ensures status == "draft" ==> shown == "Rascunho"
    ensures status != "published" && status != "draft" ==> shown == status
  {
    if status == "published" then "Publicado" else if status == "draft" then "Rascunho" else status
  }

  /** Two statuses read the same exactly when they are equal or one is the other's
      translation: a status the server already sends as `Publicado` cannot be told
      from `published`. */
  lemma StatusLabelCollisions(a: string, b: string)
    ensures StatusLabel(a) == StatusLabel(b) <==>
              a == b || {a, b} == {"published", "Publicado"} || {a, b} == {"draft", "Rascunho"}
  {
  }

  /** The criteria count: the list's length, 0 when the rubric or list is missing. */
  function CriteriaCount(e: Edict): (n: nat)
    ensures n == |CriteriaOf(Some(e))|
    ensures e.baremaConfig.None? ==> n == 0
  {
    if e.baremaConfig.Some? && e.baremaConfig.value.criteria.Some?
    then |e.baremaConfig.value.criteria.value| else 0
  }

  /** The count agrees with the grouping: the sections hold every criterion. */
  lemma CountMatchesGroups(e: Edict)
    ensures TotalSize(GroupCriteria(Some(e))) == CriteriaCount(e)
  {
  }

  /** `critério` takes an `s` unless there is exactly one. */
  function PluralSuffix(n: nat): (s: string)
    ensures s == "" <==> n == 1
  {
    if n != 1 then "s" else ""
  }

  /** A conditional's points carry a `+` exactly when positive. */
  function PointsPrefix(points: real): (p: string)
    ensures p == "+" <==> points > 0.0
    ensures p == "" <==> points <= 0.0
  {
    if points > 0.0 then "+" else ""
  }

  /** For whole-number points, the text `{prefix}{points}` starts with `+` exactly
      for a gain and with `-` exactly for a loss, and different points never read
      the same. */
  lemma PointsTextShowsSign(a: int, b: int)
    ensures var t := PointsPrefix(a as real) + Decimal(a);
            (t[0] == '+' <==> a > 0) && (t[0] == '-' <==> a < 0)
    ensures PointsPrefix(a as real) + Decimal(a) == PointsPrefix(b as real) + Decimal(b) ==> a == b
  {
    SignShows(a);
    SignShows(b);
    var ta, tb := PointsPrefix(a as real) + Decimal(a), PointsPrefix(b as real) + Decimal(b);
    if ta == tb {
      if a > 0 && b > 0 {
        assert Decimal(a) == ta[1..] == tb[1..] == Decimal(b);
        DecimalInjective(a, b);
      } else if a <= 0 && b <= 0 {
        assert Decimal(a) == ta == tb == Decimal(b);
        DecimalInjective(a, b);
      }
    }
  }

  // ----------------------------------------------------------- the order badge

  /** The numeral for one decimal digit. */
  function DigitChar(d: nat): (c: char)
    requires d < 10
    ensures '0' <= c <= '9' && c as int - '0' as int == d
  {
    ('0' as int + d) as char
  }

  /** Decimal digits of a natural number, as JavaScript prints an integer below 1e21. */
  function Digits(n: nat): (s: string)
    ensures |s| >= 1
    ensures forall i :: 0 <= i < |s| ==> '0' <= s[i] <= '9'
  {
    if n < 10 then [DigitChar(n)] else Digits(n / 10) + [DigitChar(n % 10)]
  }

  /** Reads decimal digits back. */
  function ReadDigits(s: string): nat
    requires forall i :: 0 <= i < |s| ==> '0' <= s[i] <= '9'
  {
    if s == [] then 0 else ReadDigits(s[..|s| - 1]) * 10 + (s[|s| - 1] as int - '0' as int)
  }

  lemma {:induction false} ReadDigitsInverse(n: nat)
    ensures ReadDigits(Digits(n)) == n
  {
    if n >= 10 {
      ReadDigitsInverse(n / 10);
      var s := Digits(n);
      assert s[..|s| - 1] == Digits(n / 10);
    }
  }

  /** An integer as JavaScript prints it, for magnitudes below 1e21. */
  function Decimal(n: int): (s: string)
    ensures |s| >= 1
    ensures n >= 0 ==> s == Digits(n)
    ensures n < 0 ==> s == "-" + Digits(-n)
    ensures '.' !in s
  {
    if n < 0 then "-" + Digits(-n) else Digits(n)
  }

  /** Different integers print differently. */
  lemma DigitsInjective(a: nat, b: nat)
    requires Digits(a) == Digits(b)
    ensures a == b
  {
    ReadDigitsInverse(a);
    ReadDigitsInverse(b);
  }

  /** A printed integer starts with a minus sign exactly when it is negative. */
  lemma SignShows(n: int)
    ensures Decimal(n)[0] == '-' <==> n < 0
  {
  }

  lemma DecimalInjective(a: int, b: int)
    requires Decimal(a) == Decimal(b)
    ensures a == b
  {
    SignShows(a);
    SignShows(b);
    var sa, sb := Decimal(a), Decimal(b);
    if a < 0 && b < 0 {
      assert Digits(-a) == sa[1..] == sb[1..] == Digits(-b);
      DigitsInjective(-a, -b);
    } else if a >= 0 && b >= 0 {
      DigitsInjective(a, b);
    }
  }

  /** The order badge as written: `#{display_order}{sub_order && '.' + sub_order}`.
      React prints the `&&` expression's value when it is a number, so a sub-order
      of 0 prints `0` with no dot: the badge as written is the intended one with a
      stray `0` appended exactly for a zero sub-order. */
  function BadgeAsWritten(displayOrder: int, subOrder: Option<int>): (r: string)
    ensures r == Badge(displayOrder, subOrder) + (if subOrder == Some(0) then "0" else "")
  {
    "#" + Decimal(displayOrder) +
    (match subOrder
     case None => ""
     case Some(s) => if s == 0 then "0" else "." + Decimal(s))
  }

  /** As written, criterion 3 with sub-order 0 wears the badge of criterion 30. */
  lemma BadgeAsWrittenCollides()
    ensures BadgeAsWritten(3, Some(0)) == BadgeAsWritten(30, None) == "#30"
  {
  }

  /** The order badge as intended: the sub-order suffix appears only for a truthy
      sub-order. */
  function Badge(displayOrder: int, subOrder: Option<int>): (b: string)
    ensures TruthyInt(subOrder) ==> b == "#" + Decimal(displayOrder) + "." + Decimal(subOrder.value)
    ensures !TruthyInt(subOrder) ==> b == "#" + Decimal(displayOrder)
  {
    "#" + Decimal(displayOrder) + (if TruthyInt(subOrder) then "." + Decimal(subOrder.value) else "")
  }

  /** A badge shows a dot exactly when it shows a sub-order, and badges without one
      identify the display order. */
  lemma BadgeDistinguishesOrders(d1: int, s1: Option<int>, d2: int, s2: Option<int>)
    ensures '.' in Badge(d1, s1) <==> TruthyInt(s1)
    ensures !TruthyInt(s1) && !TruthyInt(s2) && Badge(d1, s1) == Badge(d2, s2) ==> d1 == d2
  {
    if TruthyInt(s1) {
      assert Badge(d1, s1)[|"#" + Decimal(d1)|] == '.';
    }
    if !TruthyInt(s1) && !TruthyInt(s2) && Badge(d1, s1) == Badge(d2, s2) {
      assert Decimal(d1) == Badge(d1, s1)[1..] == Badge(d2, s2)[1..] == Decimal(d2);
      DecimalInjective(d1, d2);
    }
  }
}

=== FILE: edict_upload.dfy ===
/** The edict upload page (`src/pages/EdictUpload.tsx`): one PDF chosen by drop
    or by the file picker, sent for parsing, with its result or error. */
module EdictUpload {
  import opened Wrappers
  import opened Records
  import opened Api

  /** What the page reads from a browser `File`. */
  datatype FileInfo = FileInfo(name: string, mime: string)

  /** The parser's reply, reduced to what the page shows. */
  datatype Parsed = Parsed(edictId: string, status: string, message: string, criteriaCount: int)

  datatype Page = Page(file: Option<FileInfo>, isUploading: bool, result: Option<Parsed>, error: Option<string>)

  const Initial: Page := Page(None, false, None, None)

  const PdfOnly: string := "Por favor, envie apenas arquivos PDF"
  const UploadFailed: string := "Erro ao fazer upload do edital"

  predicate IsPdf(f: FileInfo) {
    f.mime == "application/pdf"
  }

  /** A chosen file (or none): a PDF replaces the current file and clears the error;
      anything else, or nothing, leaves the file and reports that only PDFs are accepted. */
  function Choose(p: Page, picked: Option<FileInfo>): (r: Page)
    ensures picked.Some? && IsPdf(picked.value) ==> r == p.(file := picked, error := None)
    ensures !(picked.Some? && IsPdf(picked.value)) ==> r == p.(error := Some(PdfOnly))
  {
    if picked.Some? && IsPdf(picked.value) then p.(file := picked, error := None)
    else p.(error := Some(PdfOnly))
  }

  function First(fs: seq<FileInfo>): Option<FileInfo> {
    if |fs| > 0 then Some(fs[0]) else None
  }

  /** `handleDrop`: only the first dropped file is considered. */
  function Drop(p: Page, dropped: seq<FileInfo>): (r: Page)
    ensures |dropped| > 0 && IsPdf(dropped[0]) ==> r.file == Some(dropped[0]) && r.error.None?
    ensures !(|dropped| > 0 && IsPdf(dropped[0])) ==> r.file == p.file && r.error == Some(PdfOnly)
    ensures r.isUploading == p.isUploading && r.result == p.result
  {
    Choose(p, First(dropped))
  }

  /** `handleFileInput`: the first selected file, when the input has a file list. */
  function FileInput(p: Page, selected: Option<seq<FileInfo>>): (r: Page)
    ensures selected.Some? ==> r == Drop(p, selected.value)
    ensures selected.None? ==> r == p.(error := Some(PdfOnly))
  {
    Choose(p, if selected.Some? then First(selected.value) else None)
  }

  /** The page holds no file, or a PDF. */
  predicate HoldsPdf(p: Page) {
    p.file.None? || IsPdf(p.file.value)
  }

  /** Every way of picking a file keeps the page holding nothing or a PDF, so only
      a PDF is ever sent, and a PDF just picked is the file the upload sends; picking
      the same file twice is picking it once. */
  lemma SelectionKeepsPdf(p: Page, picked: Option<FileInfo>, dropped: seq<FileInfo>, selected: Option<seq<FileInfo>>)
    requires HoldsPdf(p)
    ensures HoldsPdf(Choose(p, picked)) && HoldsPdf(Drop(p, dropped)) && HoldsPdf(FileInput(p, selected))
    ensures Choose(Choose(p, picked), picked) == Choose(p, picked)
    ensures picked.Some? && IsPdf(picked.value) ==> StartUpload(Choose(p, picked)) == Page(picked, true, None, None)
  {
  }

  /** Start of `handleUpload`: nothing without a file; otherwise uploading, with the
      error and the previous result cleared. */
  function StartUpload(p: Page): (r: Page)
    ensures p.file.None? ==> r == p
    ensures p.file.Some? ==> r == Page(p.file, true, None, None)
  {
    if p.file.None? then p else Page(p.file, true, None, None)
  }

  /** End of `handleUpload`: the reply's result, or the server's detail (or the
      fallback message) as the error; no longer uploading either way. */
  function FinishUpload(p: Page, reply: Reply<Parsed>): (r: Page)
    ensures !r.isUploading && r.file == p.file
    ensures reply.Success? ==> r.result == Some(reply.response) && r.error == p.error
    ensures reply.Failure? ==> r.result == p.result && r.error == Some(Or(reply.err.Detail(), UploadFailed))
  {
    match reply
    case Success(parsed) => p.(isUploading := false, result := Some(parsed))
    case Failure(err) => p.(isUploading := false, error := Some(Or(err.Detail(), UploadFailed)))
  }

  /** `removeFile`: file, result and error all reset. */
  function RemoveFile(p: Page): (r: Page)
    ensures r.file.None? && r.result.None? && r.error.None?
    ensures r.isUploading == p.isUploading
  {
    p.(file := None, result := None, error := None)
  }

  /** Removing the file returns the page to its initial state once no upload runs. */
  lemma RemoveResets(p: Page)
    requires !p.isUploading
    ensures RemoveFile(p) == Initial
  {
  }

  /** The upload as written: the page calls `endpoints.uploadEdict`, a name the API
      module does not define, so the call throws before any request whatever the
      server would have answered. */
  function SubmitAsWritten(p: Page, serverReply: Reply<Parsed>): (r: Page)
    ensures p.file.None? ==> r == p
    ensures r == Submit(p, Failure(NoResponse))
  {
    if p.file.None? then p else FinishUpload(StartUpload(p), Call("uploadEdict", serverReply))
  }

  /** As written, every upload of a chosen PDF ends in the fallback error with no result. */
  lemma SubmitAsWrittenAlwaysFails(p: Page, serverReply: Reply<Parsed>)
    requires p.file.Some?
    ensures SubmitAsWritten(p, serverReply).error == Some(UploadFailed)
    ensures SubmitAsWritten(p, serverReply).result.None?
  {
  }

  /** The upload as intended: the server's reply reaches the page. */
  function Submit(p: Page, serverReply: Reply<Parsed>): (r: Page)
    ensures p.file.None? ==> r == p
    ensures p.file.Some? ==> r == FinishUpload(StartUpload(p), serverReply)
  {
    if p.file.None? then p else FinishUpload(StartUpload(p), serverReply)
  }

  /** As intended, a successful upload shows the parsed edict and no error; a failed
      one shows the server's detail when it gives one. */
  lemma SubmitReportsTheReply(p: Page, serverReply: Reply<Parsed>)
    requires p.file.Some?
    ensures serverReply.Success? ==> Submit(p, serverReply).result == Some(serverReply.response) &&
                                     Submit(p, serverReply).error.None?
    ensures serverReply.Failure? && Truthy(serverReply.err.Detail()) ==>
              Submit(p, serverReply).error == serverReply.err.Detail() && Submit(p, serverReply).result.None?
  {
  }
}

=== FILE: kyc.dfy ===
/** The profile-completion page (`src/pages/KYC.tsx`): a seven-field form turned
    into a sparse profile update. */
module Kyc {
  import opened Wrappers
  import opened Records
  import opened Api
  import LoginPage

  datatype Form = Form(crm: string, crmState: string, specialty: string, graduationYear: string,
                       phone: string, city: string, state: string)

  const EmptyForm: Form := Form("", "", "", "", "", "", "")

  datatype Field = Crm | CrmState | Specialty | GraduationYear | Phone | City | State

  function FieldValue(f: Form, k: Field): string {
    match k
    case Crm => f.crm
    case CrmState => f.crmState
    case Specialty => f.specialty
    case GraduationYear => f.graduationYear
    case Phone => f.phone
    case City => f.city
    case State => f.state
  }

  /** `handleInputChange`: the named field takes the new value. */
  function SetField(f: Form, k: Field, v: string): (r: Form)
    ensures FieldValue(r, k) == v
    ensures forall j :: j != k ==> FieldValue(r, j) == FieldValue(f, j)
  {
    match k
    case Crm => f.(crm := v)
    case CrmState => f.(crmState := v)
    case Specialty => f.(specialty := v)
    case GraduationYear => f.(graduationYear := v)
    case Phone => f.(phone := v)
    case City => f.(city := v)
    case State => f.(state := v)
  }

  /** A value of the update object: a string, or `parseInt` of the typed year
      (left symbolic: `parseInt` is the platform's). */
  datatype UpdateValue = Text(s: string) | YearOf(raw: string)

  /** The update object: a key only for each non-empty field. The CRM's state is
      sent under `state`, and the address state, assigned after it, overwrites it. */
  function UpdateData(f: Form): (u: map<string, UpdateValue>)
    ensures "crm" in u <==> f.crm != ""
    ensures "specialty" in u <==> f.specialty != ""
    ensures "graduation_year" in u <==> f.graduationYear != ""
    ensures "phone" in u <==> f.phone != ""
    ensures "city" in u <==> f.city != ""
    ensures "state" in u <==> f.crmState != "" || f.state != ""
    ensures u.Keys <= {"crm", "specialty", "graduation_year", "phone", "city", "state"}
    ensures "crm" in u ==> u["crm"] == Text(f.crm)
    ensures "specialty" in u ==> u["specialty"] == Text(f.specialty)
    ensures "graduation_year" in u ==> u["graduation_year"] == YearOf(f.graduationYear)
    ensures "phone" in u ==> u["phone"] == Text(f.phone)
    ensures "city" in u ==> u["city"] == Text(f.city)
    ensures f.state != "" ==> u["state"] == Text(f.state)
    ensures f.state == "" && f.crmState != "" ==> u["state"] == Text(f.crmState)
  {
    assert "phone"[0] != "state"[0];
    var u0: map<string, UpdateValue> := map[];
    var u1 := PutIf(u0, f.crm != "", "crm", Text(f.crm));
    var u2 := PutIf(u1, f.crmState != "", "state", Text(f.crmState));
    var u3 := PutIf(u2, f.specialty != "", "specialty", Text(f.specialty));
    var u4 := PutIf(u3, f.graduationYear != "", "graduation_year", YearOf(f.graduationYear));
    var u5 := PutIf(u4, f.phone != "", "phone", Text(f.phone));
    var u6 := PutIf(u5, f.city != "", "city", Text(f.city));
    PutIf(u6, f.state != "", "state", Text(f.state))
  }

  /** `if (cond) update[k] = v`. */
  function PutIf(m: map<string, UpdateValue>, cond: bool, k: string, v: UpdateValue): (r: map<string, UpdateValue>)
    ensures r.Keys == if cond then m.Keys + {k} else m.Keys
    ensures cond ==> r[k] == v
    ensures forall j :: j in m && j != k ==> r[j] == m[j]
    ensures !cond && k in m ==> r[k] == m[k]
  {
    if cond then m[k := v] else m
  }

  /** The update is empty exactly for the untouched, all-empty form: any field the
      user filled in reaches the server. */
  lemma EmptyFormSendsNothing(f: Form)
    ensures UpdateData(f) == map[] <==> f == EmptyForm
  {
  }

  /** Emptying a field removes its key from the update, and typing into it puts the
      value under its key (for every field but the two that share `state`). */
  lemma EditReachesUpdate(f: Form, k: Field, v: string)
    requires k != CrmState && k != State
    ensures var key := match k
                       case Crm => "crm" case Specialty => "specialty"
                       case GraduationYear => "graduation_year" case Phone => "phone"
                       case City => "city" case _ => "state";
            (v == "" ==> key !in UpdateData(SetField(f, k, v))) &&
            (v != "" ==> key in UpdateData(SetField(f, k, v)))
  {
  }

  const UpdateFailed: string := "Erro ao atualizar perfil. Tente novamente."
  const AfterSubmit: string := "/dashboard"

  /** The error shown: the server's detail, else its message, else the fallback. */
  function ErrorText(err: HttpError): (t: string)
    ensures Truthy(err.Detail()) ==> t == err.Detail().value
    ensures !Truthy(err.Detail()) && Truthy(err.Message()) ==> t == err.Message().value
    ensures !Truthy(err.Detail()) && !Truthy(err.Message()) ==> t == UpdateFailed
    ensures t != ""
  {
    if Truthy(err.Detail()) then err.Detail().value else Or(err.Message(), UpdateFailed)
  }

  /** The profile form reads server text as the sign-in page does, and only its
      fallback differs: without server text it shows its own message, which is none
      of the sign-in page's status texts. */
  lemma ServerTextReadsAsOnLogin(err: HttpError)
    ensures Truthy(err.Detail()) || Truthy(err.Message()) ==> ErrorText(err) == LoginPage.ErrorMessage(err)
    ensures !Truthy(err.Detail()) && !Truthy(err.Message()) ==>
              ErrorText(err) == UpdateFailed && ErrorText(err) != LoginPage.ErrorMessage(err)
  {
  }

  datatype Page = Page(form: Form, loading: bool, error: string, navigateTo: Option<string>)

  /** `handleSubmit` given the reply the profile update gets: on success the page
      goes to the dashboard; on failure it shows the error. Loading is off after. */
  function Finish(p: Page, reply: Reply<()>): (r: Page)
    ensures !r.loading && r.form == p.form
    ensures reply.Success? ==> r.navigateTo == Some(AfterSubmit) && r.error == ""
    ensures reply.Failure? ==> r.navigateTo == p.navigateTo && r.error == ErrorText(reply.err)
  {
    match reply
    case Success(_) => p.(loading := false, error := "", navigateTo := Some(AfterSubmit))
    case Failure(err) => p.(loading := false, error := ErrorText(err))
  }

  /** The submit as written: the page calls `endpoints.updateUser`, which the API
      module does not define, so the call throws before any request. */
  function SubmitAsWritten(p: Page, serverReply: Reply<()>): (r: Page)
    ensures r.form == p.form && !r.loading
    ensures r == Submit(p, Failure(NoResponse))
  {
    Finish(p, Call("updateUser", serverReply))
  }

  /** As written, the profile is never sent: every submit ends in the fallback error
      and the page stays. */
  lemma SubmitAsWrittenNeverSaves(p: Page, serverReply: Reply<()>)
    ensures SubmitAsWritten(p, serverReply).error == UpdateFailed
    ensures SubmitAsWritten(p, serverReply).navigateTo == p.navigateTo
  {
  }

  /** The submit as intended: the server's reply reaches the page. */
  function Submit(p: Page, serverReply: Reply<()>): (r: Page)
    ensures serverReply.Success? ==> r.navigateTo == Some(AfterSubmit) && r.error == ""
    ensures serverReply.Failure? ==> r.error == ErrorText(serverReply.err) && r.navigateTo == p.navigateTo
  {
    Finish(p, serverReply)
  }
}

=== FILE: layout.dfy ===
/** The application layout (`src/components/Layout.tsx`): sidebar navigation,
    header title, and the signed-in user's badge. */
module Layout {
  import opened Wrappers
  import opened Records
  import opened Text

  datatype NavItem = NavItem(name: string, href: string)

  /** The sidebar entries, in display order. */
  const Navigation: seq<NavItem> := [
    NavItem("Dashboard", "/dashboard"),
    NavItem("Upload", "/upload"),
    NavItem("Validação", "/validation"),
    NavItem("Meus Editais", "/edicts"),
    NavItem("Perfil", "/profile")
  ]

  function Min(a: int, b: int): int {
    if a <= b then a else b
  }

  /** The characters the badge is built from: the first letter of every word of the
      user's full name (none when there is no user or no name). */
  function NameWordStarts(user: Option<User>): string {
    if user.Some? && user.value.fullName.Some? then WordStarts(user.value.fullName.value, true) else []
  }

  /** The avatar badge: first letters of the space-separated words, cut to two
      characters and upper-cased; `DR` when that leaves nothing. */
  function Initials(user: Option<User>): (r: string)
    ensures 1 <= |r| <= 2
    ensures NameWordStarts(user) == [] ==> r == "DR"
    ensures NameWordStarts(user) != [] ==>
              r == Upper(NameWordStarts(user)[..Min(2, |NameWordStarts(user)|)])
  {
    if user.Some? && user.value.fullName.Some? then
      var letters := FirstLetters(Split(user.value.fullName.value));
      FirstLettersAreWordStarts(user.value.fullName.value);
      var badge := Upper(letters[..Min(2, |letters|)]);
      if badge == "" then "DR" else badge
    else "DR"
  }

  /** Name shown under the badge. */
  const DefaultName: string := "Dr. Usuário"

  function DisplayName(user: Option<User>): (r: string)
    ensures r != ""
    ensures user.Some? && Truthy(user.value.fullName) ==> r == user.value.fullName.value
    ensures !(user.Some? && Truthy(user.value.fullName)) ==> r == DefaultName
  {
    if user.Some? then Or(user.value.fullName, DefaultName) else DefaultName
  }

  /** The name and the badge fall back together: without a name the badge reads
      `DR` under `Dr. Usuário`, and a badge built from the name sits under that
      very name. */
  lemma NameAndBadgeAgree(user: Option<User>)
    ensures !(user.Some? && Truthy(user.value.fullName)) ==> DisplayName(user) == DefaultName && Initials(user) == "DR"
    ensures NameWordStarts(user) != [] ==> DisplayName(user) == user.value.fullName.value
  {
  }

  /** `user?.subscription_tier || 'free'` */
  function Plan(user: Option<User>): string {
    if user.Some? then Or(user.value.subscriptionTier, "free") else "free"
  }

  /** Plan caption: `free` and `basic` have their own names, every other tier reads Premium. */
  function PlanLabel(plan: string): string {
    if plan == "free" then "Free" else if plan == "basic" then "Básico" else "Premium"
  }

  /** The caption a user sees: Free without a tier, Básico for `basic`, and Premium
      for any other non-empty tier, including ones the app does not know. */
  lemma PlanCaption(user: Option<User>)
    ensures !(user.Some? && Truthy(user.value.subscriptionTier)) ==> PlanLabel(Plan(user)) == "Free"
    ensures PlanLabel(Plan(user)) == "Premium" <==>
              user.Some? && Truthy(user.value.subscriptionTier) &&
              user.value.subscriptionTier.value != "free" && user.value.subscriptionTier.value != "basic"
  {
  }

  /** A sidebar entry is highlighted exactly when the current path is its href. */
  predicate IsActive(item: NavItem, path: string) {
    path == item.href
  }

  /** `items.find(item => item.href === path)?.name` */
  function FindTitle(items: seq<NavItem>, path: string): (r: Option<string>)
    ensures r.None? <==> forall i :: 0 <= i < |items| ==> !IsActive(items[i], path)
    ensures r.Some? ==> exists i :: 0 <= i < |items| && IsActive(items[i], path) && items[i].name == r.value &&
                                    forall j :: 0 <= j < i ==> !IsActive(items[j], path)
  {
    if items == [] then None
    else if IsActive(items[0], path) then Some(items[0].name)
    else
      var r := FindTitle(items[1..], path);
      if r.Some? then
        var i :| 0 <= i < |items[1..]| && IsActive(items[1..][i], path) && items[1..][i].name == r.value &&
                 forall j :: 0 <= j < i ==> !IsActive(items[1..][j], path);
        assert items[i + 1] == items[1..][i];
        assert forall j :: 0 <= j < i + 1 ==> !IsActive(items[j], path) by {
          forall j | 0 <= j < i + 1
            ensures !IsActive(items[j], path)
          {
            if j > 0 { assert items[j] == items[1..][j - 1]; }
          }
        }
        r
      else
        assert forall i :: 0 <= i < |items| ==> !IsActive(items[i], path) by {
          forall i | 0 <= i < |items|
            ensures !IsActive(items[i], path)
          {
            if i > 0 { assert items[i] == items[1..][i - 1]; }
          }
        }
        r
  }

  /** The header title for the current path. */
  function HeaderTitle(path: string): Option<string> {
    FindTitle(Navigation, path)
  }

  /** The sidebar hrefs are distinct, so at most one entry is highlighted, and the
      header shows that entry's name exactly when there is one. */
  lemma HeaderNamesTheActiveItem(path: string)
    ensures forall i, j :: 0 <= i < j < |Navigation| ==> !(IsActive(Navigation[i], path) && IsActive(Navigation[j], path))
    ensures forall i :: 0 <= i < |Navigation| && IsActive(Navigation[i], path) ==> HeaderTitle(path) == Some(Navigation[i].name)
    ensures HeaderTitle(path).None? <==> forall i :: 0 <= i < |Navigation| ==> !IsActive(Navigation[i], path)
  {
  }
}

=== FILE: login.dfy ===
/** The sign-in / sign-up page (`src/pages/Login.tsx`): the form, the requests a
    submit makes, where it sends the browser, and the error it shows. */
module LoginPage {
  import opened Wrappers
  import opened Records
  import opened Storage
  import opened Api
  import AuthProvider
  import Routes

  datatype Form = Form(email: string, password: string, fullName: string, crmNumber: string, crmState: string)

  const EmptyForm: Form := Form("", "", "", "", "")

  datatype Field = Email | Password | FullName | CrmNumber | CrmState

  function FieldValue(f: Form, k: Field): string {
    match k
    case Email => f.email
    case Password => f.password
    case FullName => f.fullName
    case CrmNumber => f.crmNumber
    case CrmState => f.crmState
  }

  /** `isLogin` selects sign-in (true) or sign-up (false). */
  datatype Page = Page(isLogin: bool, loading: bool, error: string, form: Form)

  const Initial: Page := Page(true, false, "", EmptyForm)

  /** `handleInputChange`: the named field takes the value and the error is cleared. */
  function Edit(p: Page, k: Field, v: string): (r: Page)
    ensures FieldValue(r.form, k) == v
    ensures forall j :: j != k ==> FieldValue(r.form, j) == FieldValue(p.form, j)
    ensures r.error == "" && r.isLogin == p.isLogin && r.loading == p.loading
  {
    var f := p.form;
    var g := match k
      case Email => f.(email := v)
      case Password => f.(password := v)
      case FullName => f.(fullName := v)
      case CrmNumber => f.(crmNumber := v)
      case CrmState => f.(crmState := v);
    p.(form := g, error := "")
  }

  /** The mode link: switch mode, clear the error and every field. */
  function Toggle(p: Page): (r: Page)
    ensures r.isLogin == !p.isLogin
    ensures r.error == "" && r.loading == p.loading
    ensures forall k :: FieldValue(r.form, k) == ""
  {
    p.(isLogin := !p.isLogin, error := "", form := EmptyForm)
  }

  /** Toggling twice returns to the same mode with a blank form. */
  lemma ToggleTwice(p: Page)
    ensures Toggle(Toggle(p)) == p.(error := "", form := EmptyForm)
  {
  }

  const WrongCredentials: string := "Email ou senha incorretos"
  const UnknownUser: string := "Usuário não encontrado"
  const InvalidData: string := "Dados inválidos. Verifique os campos e tente novamente."
  const Generic: string := "Erro ao processar sua solicitação. Por favor, tente novamente."

  /** The error shown: the server's detail, else its message, else a message chosen
      by status (401, 404, 400), else the generic one. */
  function ErrorMessage(err: HttpError): (m: string)
    ensures Truthy(err.Detail()) ==> m == err.Detail().value
    ensures !Truthy(err.Detail()) && Truthy(err.Message()) ==> m == err.Message().value
    ensures !Truthy(err.Detail()) && !Truthy(err.Message()) ==>
              m == (if err.Status() == Some(401) then WrongCredentials
                    else if err.Status() == Some(404) then UnknownUser
                    else if err.Status() == Some(400) then InvalidData
                    else Generic)
    ensures m != ""
  {
    if Truthy(err.Detail()) then err.Detail().value
    else if Truthy(err.Message()) then err.Message().value
    else if err.Status() == Some(401) then WrongCredentials
    else if err.Status() == Some(404) then UnknownUser
    else if err.Status() == Some(400) then InvalidData
    else Generic
  }

  /** Without server text the message depends on the status alone, and the three
      specific texts identify their status. */
  lemma FallbacksFollowStatus(err: HttpError, other: HttpError)
    requires !Truthy(err.Detail()) && !Truthy(err.Message())
    requires !Truthy(other.Detail()) && !Truthy(other.Message())
    ensures err.Status() == other.Status() ==> ErrorMessage(err) == ErrorMessage(other)
    ensures ErrorMessage(err) == ErrorMessage(other) && err.Status() in {Some(401), Some(404), Some(400)} ==>
              err.Status() == other.Status()
  {
  }

  /** The browser target after a sign-in: the profile form when the user has no CRM yet. */
  function LoginRedirect(u: User): (target: string)
    ensures target == "/kyc" <==> !Truthy(u.crm)
    ensures target == "/dashboard" <==> Truthy(u.crm)
  {
    if !Truthy(u.crm) then "/kyc" else "/dashboard"
  }

  /** The browser target after a sign-up. */
  const RegisterRedirect: string := "/kyc"

  /** The route table has no `/kyc` entry: the catch-all sends that path to
      `/login`, which a signed-in user leaves for `/dashboard`. So after a sign-in
      or a sign-up the browser settles on the dashboard, and the profile form is
      never shown, whether or not the user has a CRM. */
  lemma RedirectsSettleOnDashboard(u: User)
    ensures var signedIn := Routes.Auth(false, true);
            Routes.Settle(LoginRedirect(u), signedIn, 2) == Routes.Show(Routes.DashboardPage) &&
            Routes.Settle(RegisterRedirect, signedIn, 2) == Routes.Show(Routes.DashboardPage)
  {
    Routes.EveryPathSettles(LoginRedirect(u), Routes.Auth(false, true));
    Routes.EveryPathSettles(RegisterRedirect, Routes.Auth(false, true));
  }

  /** The requests a submit makes, with the form values they carry. */
  datatype ApiCall =
    | LoginCall(email: string, password: string)
    | RegisterCall(email: string, password: string, fullName: string, crmNumber: string, crmState: string)

  /** The sign-in reply body. */
  datatype Session = Session(accessToken: string, user: User)

  /** Everything a submit changes: the page, the session provider (with its storage),
      the requests made, and where the browser is sent. */
  datatype Outcome = Outcome(page: Page, provider: AuthProvider.Provider, calls: seq<ApiCall>, redirect: Option<string>)

  /** A failed request: the response interceptor runs first (a 401 clears the
      session and sends the browser to `/login`), then the page shows its message. */
  function Fail(p: Page, prov: AuthProvider.Provider, calls: seq<ApiCall>, err: HttpError): (o: Outcome)
    ensures o.page == p.(loading := false, error := ErrorMessage(err))
    ensures o.calls == calls
    ensures o.redirect.Some? <==> err.Status() == Some(401)
    ensures err.Status() == Some(401) ==> o.provider.store == ClearSession(prov.store)
    ensures err.Status() != Some(401) ==> o.provider == prov
  {
    var failed: Reply<Session> := Failure(err);
    var i := InterceptResponse(failed, prov.store);
    Outcome(p.(loading := false, error := ErrorMessage(err)), prov.(store := i.store), calls, i.redirect)
  }

  /** A successful sign-in: both keys stored, the provider told, the browser sent on. */
  function Succeed(p: Page, prov: AuthProvider.Provider, calls: seq<ApiCall>, s: Session,
                   encode: User -> string, target: string): (o: Outcome)
    ensures o.provider.state.user == Some(s.user)
    ensures Get(o.provider.store, TokenKey) == Some(s.accessToken)
    ensures Get(o.provider.store, UserKey) == Some(encode(s.user))
    ensures o.redirect == Some(target) && o.calls == calls && o.page == p.(loading := false, error := "")
  {
    var stored := prov.(store := SaveSession(prov.store, s.accessToken, encode(s.user)));
    Outcome(p.(loading := false, error := ""), AuthProvider.Login(stored, s.accessToken, s.user, encode), calls, Some(target))
  }

  /** `handleSubmit`, given the replies the server would send. Sign-in posts the
      credentials; sign-up posts the five fields and, once registered, signs in
      with the same email and password. */
  function Submit(p: Page, prov: AuthProvider.Provider, registerReply: Reply<()>,
                  loginReply: Reply<Session>, encode: User -> string): (o: Outcome)
    ensures !o.page.loading
    ensures p.isLogin ==> o.calls == [LoginCall(p.form.email, p.form.password)]
    ensures !p.isLogin && registerReply.Failure? ==>
              o.calls == [RegisterCall(p.form.email, p.form.password, p.form.fullName, p.form.crmNumber, p.form.crmState)]
    ensures !p.isLogin && registerReply.Success? ==>
              o.calls == [RegisterCall(p.form.email, p.form.password, p.form.fullName, p.form.crmNumber, p.form.crmState),
                          LoginCall(p.form.email, p.form.password)]
    ensures p.isLogin && loginReply.Success? ==> o.redirect == Some(LoginRedirect(loginReply.response.user))
    ensures !p.isLogin && registerReply.Success? && loginReply.Success? ==> o.redirect == Some(RegisterRedirect)
    ensures (p.isLogin || registerReply.Success?) && loginReply.Success? ==>
              o.provider.state.user == Some(loginReply.response.user) && o.page.error == ""
    ensures !p.isLogin && registerReply.Failure? ==> o.page.error == ErrorMessage(registerReply.err)
    ensures (p.isLogin || registerReply.Success?) && loginReply.Failure? ==> o.page.error == ErrorMessage(loginReply.err)
  {
    var login := LoginCall(p.form.email, p.form.password);
    if p.isLogin then
      match loginReply
      case Success(s) => Succeed(p, prov, [login], s, encode, LoginRedirect(s.user))
      case Failure(err) => Fail(p, prov, [login], err)
    else
      var register := RegisterCall(p.form.email, p.form.password, p.form.fullName, p.form.crmNumber, p.form.crmState);
      match registerReply
      case Failure(err) => Fail(p, prov, [register], err)
      case Success(_) =>
        match loginReply
        case Success(s) => Succeed(p, prov, [register, login], s, encode, RegisterRedirect)
        case Failure(err) => Fail(p, prov, [register, login], err)
  }

  /** A successful sign-in survives the full page load the redirect causes: the
      provider's next mount restores the same user. */
  lemma SignInSurvivesRedirect(p: Page, prov: AuthProvider.Provider, registerReply: Reply<()>,
                               loginReply: Reply<Session>, encode: User -> string, parse: string -> Option<User>)
    requires Codec(encode, parse)
    requires loginReply.Success? && loginReply.response.accessToken != ""
    requires p.isLogin || registerReply.Success?
    ensures AuthProvider.Mount(Submit(p, prov, registerReply, loginReply, encode).provider.store, parse).state.user
            == Some(loginReply.response.user)
  {
  }

  /** A rejected password with no server text shows the 401 message, but the
      interceptor also clears the session and reloads `/login`, which resets the page. */
  lemma WrongPasswordReloads(p: Page, prov: AuthProvider.Provider, registerReply: Reply<()>, err: HttpError, encode: User -> string)
    requires p.isLogin
    requires err.Status() == Some(401) && !Truthy(err.Detail()) && !Truthy(err.Message())
    ensures var o := Submit(p, prov, registerReply, Failure(err), encode);
            o.page.error == WrongCredentials && o.redirect == Some(LoginPath) &&
            TokenKey !in o.provider.store && UserKey !in o.provider.store
  {
  }
}

=== FILE: records.dfy ===
/** The record shapes the front end receives from the API (`src/types/index.ts`),
    restricted to the fields some modelled behaviour reads. Every field the
    code reads through `||` or `?.` may be absent and is an `Option`. */
module Records {
  import opened Wrappers

  /** An uploaded proof-of-activity document, as the certificate endpoints return it.
      `validationStatus` is the backend's `validation_status`, which the user store
      folds into `status`. */
  datatype Certificate = Certificate(
    id: string,
    title: Option<string>,
    institution: Option<string>,
    category: Option<string>,
    workloadHours: Option<real>,
    startDate: Option<string>,
    endDate: Option<string>,
    issueDate: Option<string>,
    status: Option<string>,
    validationStatus: Option<string>,
    aiConfidence: Option<real>,
    extractionConfidence: Option<real>,
    fileName: Option<string>)

  /** The signed-in physician. */
  datatype User = User(
    id: string,
    email: string,
    fullName: Option<string>,
    crm: Option<string>,
    state: Option<string>,
    subscriptionTier: Option<string>,
    totalScore: Option<real>)

  /** A conditional bonus attached to a criterion. */
  datatype Conditional = Conditional(trigger: string, additionalPoints: real, description: Option<string>)

  /** One scorable rule of a barema (evaluation rubric). */
  datatype Criterion = Criterion(
    program: Option<string>,
    department: Option<string>,
    displayOrder: int,
    subOrder: Option<int>,
    categorySlug: string,
    description: string,
    unitPoints: real,
    conditionals: Option<seq<Conditional>>,
    itemLimit: Option<int>,
    maxPoints: Option<real>)

  /** The rubric attached to an edict. */
  datatype BaremaConfig = BaremaConfig(criteria: Option<seq<Criterion>>, footnotes: Option<seq<string>>)

  /** A residency-program call ("edital") with its rubric. */
  datatype Edict = Edict(
    id: string,
    code: string,
    title: string,
    institution: string,
    status: string,
    year: Option<int>,
    baremaConfig: Option<BaremaConfig>)

  /** The part of a failed request the pages read: `err.response?.status`,
      `err.response?.data?.detail` and `err.response?.data?.message`. A network
      failure or an exception thrown before any request has no response. */
  datatype ErrorResponse = ErrorResponse(status: int, detail: Option<string>, message: Option<string>)
  datatype HttpError = HttpError(response: Option<ErrorResponse>) {

    /** `err.response?.data?.detail` */
    function Detail(): Option<string> {
      if response.Some? then response.value.detail else None
    }

    /** `err.response?.data?.message` */
    function Message(): Option<string> {
      if response.Some? then response.value.message else None
    }

    /** `err.response?.status` */
    function Status(): Option<int> {
      if response.Some? then Some(response.value.status) else None
    }
  }

  /** An error with no response, such as a thrown `TypeError`. */
  const NoResponse: HttpError := HttpError(None)
}

=== FILE: routes.dfy ===
/** Route guards and the route table of the application shell (`src/App.tsx`). */
module Routes {
  import opened Wrappers

  /** What a guard reads from the session provider. */
  datatype Auth = Auth(isLoading: bool, isAuthenticated: bool)

  /** What a guard renders: a spinner, a redirect, or its children. */
  datatype GuardOutcome = Spinner | RedirectTo(path: string) | Children

  const LoginPath: string := "/login"
  const DashboardPath: string := "/dashboard"

  /** `ProtectedRoute`: spinner while loading, else `/login` for anonymous users. */
  function Protected(a: Auth): (o: GuardOutcome)
    ensures a.isLoading <==> o.Spinner?
    ensures o.RedirectTo? <==> !a.isLoading && !a.isAuthenticated
    ensures o.RedirectTo? ==> o.path == LoginPath
  {
    if a.isLoading then Spinner
    else if !a.isAuthenticated then RedirectTo(LoginPath)
    else Children
  }

  /** `PublicRoute`: spinner while loading, else `/dashboard` for signed-in users. */
  function Public(a: Auth): (o: GuardOutcome)
    ensures a.isLoading <==> o.Spinner?
    ensures o.RedirectTo? <==> !a.isLoading && a.isAuthenticated
    ensures o.RedirectTo? ==> o.path == DashboardPath
  {
    if a.isLoading then Spinner
    else if a.isAuthenticated then RedirectTo(DashboardPath)
    else Children
  }

  /** Once loading is over, exactly one of the two guards lets its children through. */
  lemma GuardsAreComplementary(a: Auth)
    requires !a.isLoading
    ensures Protected(a).Children? <==> !Public(a).Children?
  {
  }

  /** The pages behind the routes. */
  datatype Page =
    | LoginPage
    | DashboardPage
    | UploadPage
    | ValidationPage
    | EdictsPage
    | EdictUploadPage
    | EdictDetailPage(id: string)
    | ProfilePage

  /** What the router shows for a path. */
  datatype View = Loading | Redirect(to: string) | Show(page: Page)

  /** The pages nested under the protected layout route `/`, by path. The static
      `edicts/upload` outranks the `edicts/:id` pattern, and `:id` matches one
      non-empty segment. */
  function LayoutChild(path: string): (r: Option<Page>)
    ensures r.Some? ==> path != "/login" && path != "/" && |path| > 1 && path[0] == '/'
    ensures r.Some? && r.value.EdictDetailPage? <==>
              |path| > 8 && path[..8] == "/edicts/" && '/' !in path[8..] && path[8..] != "upload"
    ensures r.Some? && r.value.EdictDetailPage? ==> path == "/edicts/" + r.value.id
  {
    if |path| > 8 && path[..8] == "/edicts/" then
      if path[8..] == "upload" then Some(EdictUploadPage)
      else if '/' !in path[8..] then Some(EdictDetailPage(path[8..]))
      else None
    else if path == "/dashboard" then Some(DashboardPage)
    else if path == "/upload" then Some(UploadPage)
    else if path == "/validation" then Some(ValidationPage)
    else if path == "/edicts" then Some(EdictsPage)
    else if path == "/profile" then Some(ProfilePage)
    else None
  }

  /** Route resolution: `/login` behind `PublicRoute`; `/` (which redirects to
      `/dashboard`) and the layout's pages behind `ProtectedRoute`; anything else
      redirects to `/login`. */
  function Resolve(path: string, a: Auth): (v: View)
    ensures path != "/login" && path != "/" && LayoutChild(path).None? ==> v == Redirect(LoginPath)
    ensures a.isLoading && (path == "/login" || path == "/" || LayoutChild(path).Some?) ==> v == Loading
    ensures !a.isLoading && !a.isAuthenticated && path != "/login" ==> v == Redirect(LoginPath)
    ensures !a.isLoading && a.isAuthenticated && (path == "/login" || path == "/") ==> v == Redirect(DashboardPath)
    ensures !a.isLoading && !a.isAuthenticated && path == "/login" ==> v == Show(LoginPage)
    ensures !a.isLoading && a.isAuthenticated && LayoutChild(path).Some? ==> v == Show(LayoutChild(path).value)
  {
    if path == "/login" then
      match Public(a)
      case Spinner => Loading
      case RedirectTo(p) => Redirect(p)
      case Children => Show(LoginPage)
    else if path == "/" || LayoutChild(path).Some? then
      match Protected(a)
      case Spinner => Loading
      case RedirectTo(p) => Redirect(p)
      case Children => if path == "/" then Redirect(DashboardPath) else Show(LayoutChild(path).value)
    else Redirect(LoginPath)
  }

  /** Follows at most `hops` redirects from `path`. */
  function Settle(path: string, a: Auth, hops: nat): View
    decreases hops
  {
    var v := Resolve(path, a);
    if v.Redirect? && hops > 0 then Settle(v.to, a, hops - 1) else v
  }

  /** No redirect loop: once loading is over, every path reaches a page within two
      redirects. A signed-in user sees the layout page the path names, and the
      dashboard for any other path (an unknown path goes to `/login`, which a
      signed-in user leaves for `/dashboard`); an anonymous user sees the login
      page. */
  lemma EveryPathSettles(path: string, a: Auth)
    requires !a.isLoading
    ensures a.isAuthenticated ==>
              Settle(path, a, 2) == Show(if LayoutChild(path).Some? then LayoutChild(path).value else DashboardPage)
    ensures !a.isAuthenticated ==> Settle(path, a, 2) == Show(LoginPage)
  {
    assert DashboardPath[..8] != "/edicts/" by {
      assert DashboardPath[..8][1] != "/edicts/"[1];
    }
    assert LayoutChild(DashboardPath) == Some(DashboardPage);
  }
}

=== FILE: seqs.dfy ===
/** Order-preserving selection from a sequence (`Array.prototype.filter`) and
    the counts derived from it. */
module Seqs {

  /** The elements of `s` that satisfy `p`, in their original order. */
  function Filter<T>(s: seq<T>, p: T -> bool): (r: seq<T>)
    ensures |r| <= |s|
    ensures forall i :: 0 <= i < |r| ==> r[i] in s && p(r[i])
    ensures forall i :: 0 <= i < |s| && p(s[i]) ==> s[i] in r
    ensures multiset(r) <= multiset(s)
  {
    if s == [] then []
    else
      assert s == [s[0]] + s[1..];
      (if p(s[0]) then [s[0]] else []) + Filter(s[1..], p)
  }

  /** How many elements of `s` satisfy `p` (`s.filter(p).length`). */
  function Count<T>(s: seq<T>, p: T -> bool): nat {
    |Filter(s, p)|
  }

  /** The count is zero exactly when no element satisfies `p`, and the whole length
      exactly when every element does. */
  lemma CountBounds<T>(s: seq<T>, p: T -> bool)
    ensures Count(s, p) == 0 <==> forall i :: 0 <= i < |s| ==> !p(s[i])
    ensures Count(s, p) == |s| <==> forall i :: 0 <= i < |s| ==> p(s[i])
  {
    CountZero(s, p);
    CountFull(s, p);
  }

  lemma {:induction false} CountZero<T>(s: seq<T>, p: T -> bool)
    ensures Count(s, p) == 0 <==> forall i :: 0 <= i < |s| ==> !p(s[i])
  {
    if s != [] {
      CountZero(s[1..], p);
      assert Count(s, p) == (if p(s[0]) then 1 else 0) + Count(s[1..], p);
      if forall i :: 1 <= i < |s| ==> !p(s[i]) {
        assert forall i :: 0 <= i < |s[1..]| ==> !p(s[1..][i]);
      }
      if forall i :: 0 <= i < |s[1..]| ==> !p(s[1..][i]) {
        forall i | 1 <= i < |s| ensures !p(s[i]) {
          assert s[i] == s[1..][i - 1];
        }
      }
    }
  }

  lemma {:induction false} CountFull<T>(s: seq<T>, p: T -> bool)
    ensures Count(s, p) == |s| <==> forall i :: 0 <= i < |s| ==> p(s[i])
  {
    if s != [] {
      CountFull(s[1..], p);
      assert Count(s, p) == (if p(s[0]) then 1 else 0) + Count(s[1..], p);
      assert Count(s[1..], p) <= |s[1..]|;
      if forall i :: 1 <= i < |s| ==> p(s[i]) {
        assert forall i :: 0 <= i < |s[1..]| ==> p(s[1..][i]);
      }
      if forall i :: 0 <= i < |s[1..]| ==> p(s[1..][i]) {
        forall i | 1 <= i < |s| ensures p(s[i]) {
          assert s[i] == s[1..][i - 1];
        }
      }
    }
  }

  /** Filtering distributes over concatenation: selection never reorders. */
  lemma {:induction false} FilterAppend<T>(a: seq<T>, b: seq<T>, p: T -> bool)
    ensures Filter(a + b, p) == Filter(a, p) + Filter(b, p)
  {
    if a == [] {
      assert a + b == b;
    } else {
      assert (a + b)[0] == a[0];
      assert (a + b)[1..] == a[1..] + b;
      FilterAppend(a[1..], b, p);
    }
  }

  /** Selection keeps every selected element as often as it occurs, and drops
      every other one. */
  lemma {:induction false} FilterMultiset<T>(s: seq<T>, p: T -> bool, x: T)
    ensures multiset(Filter(s, p))[x] == if p(x) then multiset(s)[x] else 0
  {
    if s != [] {
      assert s == [s[0]] + s[1..];
      FilterMultiset(s[1..], p, x);
    }
  }

  /** Selecting with a predicate every element satisfies keeps the sequence. */
  lemma {:induction false} FilterAll<T>(s: seq<T>, p: T -> bool)
    requires forall i :: 0 <= i < |s| ==> p(s[i])
    ensures Filter(s, p) == s
  {
    if s != [] {
      FilterAll(s[1..], p);
    }
  }

  /** Selecting with a predicate no element satisfies gives the empty sequence. */
  lemma {:induction false} FilterNone<T>(s: seq<T>, p: T -> bool)
    requires forall i :: 0 <= i < |s| ==> !p(s[i])
    ensures Filter(s, p) == []
  {
    if s != [] {
      FilterNone(s[1..], p);
    }
  }

  /** Two predicates that agree on every element select the same elements. */
  lemma {:induction false} FilterCongruent<T>(s: seq<T>, p: T -> bool, q: T -> bool)
    requires forall i :: 0 <= i < |s| ==> p(s[i]) == q(s[i])
    ensures Filter(s, p) == Filter(s, q)
  {
    if s != [] {
      FilterCongruent(s[1..], p, q);
    }
  }

  /** Elements satisfying `p` and those failing it together make up the whole sequence. */
  lemma {:induction false} CountSplit<T>(s: seq<T>, p: T -> bool, q: T -> bool)
    requires forall i :: 0 <= i < |s| ==> q(s[i]) == !p(s[i])
    ensures Count(s, p) + Count(s, q) == |s|
  {
    if s != [] {
      CountSplit(s[1..], p, q);
    }
  }

  /** Counting with a weaker predicate never gives less. */
  lemma {:induction false} CountMonotone<T>(s: seq<T>, p: T -> bool, q: T -> bool)
    requires forall i :: 0 <= i < |s| ==> p(s[i]) ==> q(s[i])
    ensures Count(s, p) <= Count(s, q)
  {
    if s != [] {
      CountMonotone(s[1..], p, q);
    }
  }

  /** Elements satisfying two exclusive predicates are counted no more than once. */
  lemma {:induction false} CountDisjoint<T>(s: seq<T>, p: T -> bool, q: T -> bool)
    requires forall i :: 0 <= i < |s| ==> !(p(s[i]) && q(s[i]))
    ensures Count(s, p) + Count(s, q) <= |s|
  {
    if s != [] {
      CountDisjoint(s[1..], p, q);
    }
  }
}

=== FILE: storage.dfy ===
/** The browser's `localStorage` as the front end uses it: a string-to-string map
    holding at most the session token and a serialised user snapshot. */
module Storage {
  import opened Wrappers

  type Store = map<string, string>

  const TokenKey: string := "auth_token"
  const UserKey: string := "user_data"

  /** `localStorage.getItem(k)`: the stored string, or `null` when absent. */
  function Get(st: Store, k: string): Option<string> {
    if k in st then Some(st[k]) else None
  }

  /** Removes both session keys and nothing else. */
  function ClearSession(st: Store): (r: Store)
    ensures TokenKey !in r && UserKey !in r
    ensures forall k :: k in st && k != TokenKey && k != UserKey ==> k in r && r[k] == st[k]
    ensures forall k :: k in r ==> k in st
  {
    st - {TokenKey, UserKey}
  }

  /** Writes the token and the serialised user, leaving every other key alone. */
  function SaveSession(st: Store, token: string, userJson: string): (r: Store)
    ensures Get(r, TokenKey) == Some(token) && Get(r, UserKey) == Some(userJson)
    ensures forall k :: k != TokenKey && k != UserKey ==> Get(r, k) == Get(st, k)
  {
    st[TokenKey := token][UserKey := userJson]
  }

  /** Outcome of reading the session back at start-up. */
  datatype Restored<U> = Restored(user: Option<U>, store: Store)

  /** The start-up rule shared by the auth provider and the auth hook: when both keys
      hold non-empty strings, parse the snapshot; a snapshot that fails to parse is
      discarded together with the token. `parse` stands for `JSON.parse`, `None`
      meaning it threw. */
  function Rehydrate<U>(st: Store, parse: string -> Option<U>): (r: Restored<U>)
    ensures r.user.Some? <==> Truthy(Get(st, TokenKey)) && Truthy(Get(st, UserKey)) && parse(st[UserKey]).Some?
    ensures r.user.Some? ==> r.user == parse(st[UserKey]) && r.store == st
    ensures Truthy(Get(st, TokenKey)) && Truthy(Get(st, UserKey)) && parse(st[UserKey]).None? ==>
              r.store == ClearSession(st)
    ensures !(Truthy(Get(st, TokenKey)) && Truthy(Get(st, UserKey))) ==> r.user.None? && r.store == st
  {
    var token := Get(st, TokenKey);
    var userData := Get(st, UserKey);
    if Truthy(token) && Truthy(userData) then
      match parse(userData.value)
      case Some(u) => Restored(Some(u), st)
      case None => Restored(None, ClearSession(st))
    else Restored(None, st)
  }

  /** A serialiser and a parser that undo each other, with never-empty output
      (`JSON.stringify` of an object is at least `{}`). */
  ghost predicate Codec<U(!new)>(encode: U -> string, parse: string -> Option<U>) {
    forall u :: parse(encode(u)) == Some(u) && encode(u) != ""
  }

  /** A saved session is read back at the next start-up. */
  lemma SaveThenRehydrate<U(!new)>(st: Store, token: string, u: U, encode: U -> string, parse: string -> Option<U>)
    requires Codec(encode, parse)
    requires token != ""
    ensures Rehydrate(SaveSession(st, token, encode(u)), parse).user == Some(u)
  {
  }

  /** After the session keys are cleared, start-up finds nobody signed in. */
  lemma ClearThenRehydrate<U>(st: Store, parse: string -> Option<U>)
    ensures Rehydrate(ClearSession(st), parse).user.None?
  {
  }
}

=== FILE: text.dfy ===
/** The string operations the layout and the dashboard apply to a user's name:
    `split(' ')`, first letters of words, and upper-casing. */
module Text {

  /** `s.split(' ')`: the maximal space-free pieces between single spaces,
      empty pieces included (so `"a  b"` gives `["a", "", "b"]`). */
  function Split(s: string): (ws: seq<string>)
    ensures |ws| >= 1
    ensures forall i :: 0 <= i < |ws| ==> ' ' !in ws[i]
  {
    if s == [] then [""]
    else if s[0] == ' ' then [""] + Split(s[1..])
    else
      var r := Split(s[1..]);
      [[s[0]] + r[0]] + r[1..]
  }

  /** `ws.join(' ')` */
  function Join(ws: seq<string>): string
    requires |ws| >= 1
  {
    if |ws| == 1 then ws[0] else ws[0] + " " + Join(ws[1..])
  }

  /** Joining the pieces back with single spaces gives the original string. */
  lemma {:induction false} JoinSplit(s: string)
    ensures Join(Split(s)) == s
  {
    if s == [] {
    } else if s[0] == ' ' {
      JoinSplit(s[1..]);
      assert Split(s)[1..] == Split(s[1..]);
      assert s == " " + s[1..];
    } else {
      var r := Split(s[1..]);
      JoinSplit(s[1..]);
      assert s == [s[0]] + s[1..];
      if |r| > 1 {
        assert Join(r) == r[0] + " " + Join(r[1..]);
        assert Split(s)[1..] == r[1..];
      }
    }
  }

  /** Splitting space-free words joined with single spaces gives the words back. */
  lemma {:induction false} SplitJoin(ws: seq<string>)
    requires |ws| >= 1
    requires forall i :: 0 <= i < |ws| ==> ' ' !in ws[i]
    ensures Split(Join(ws)) == ws
  {
    if |ws| == 1 {
      SplitWord(ws[0]);
    } else {
      SplitJoin(ws[1..]);
      SplitWordThenSpace(ws[0], Join(ws[1..]));
      assert ws == [ws[0]] + ws[1..];
    }
  }

  /** A space-free string is a single piece. */
  lemma {:induction false} SplitWord(w: string)
    requires ' ' !in w
    ensures Split(w) == [w]
  {
    if w != [] {
      SplitWord(w[1..]);
      assert w == [w[0]] + w[1..];
    }
  }

  /** A space-free word followed by a space starts the split of the whole. */
  lemma {:induction false} SplitWordThenSpace(w: string, rest: string)
    requires ' ' !in w
    ensures Split(w + " " + rest) == [w] + Split(rest)
  {
    if w == [] {
      assert w + " " + rest == [' '] + rest;
    } else {
      assert (w + " " + rest)[1..] == w[1..] + " " + rest;
      SplitWordThenSpace(w[1..], rest);
      assert w == [w[0]] + w[1..];
    }
  }

  /** The first piece is the longest space-free prefix: it is a prefix of the
      string and is followed by a space or by the end. */
  lemma {:induction false} SplitHead(s: string)
    ensures Split(s)[0] <= s
    ensures |Split(s)[0]| == |s| || s[|Split(s)[0]|] == ' '
  {
    if s != [] && s[0] != ' ' {
      SplitHead(s[1..]);
      assert s == [s[0]] + s[1..];
    }
  }

  /** `words.map(n => n[0]).join('')`: the first character of every non-empty
      word (an empty word contributes `undefined`, which `join` prints as nothing). */
  function FirstLetters(ws: seq<string>): string {
    if ws == [] then []
    else (if ws[0] != [] then [ws[0][0]] else []) + FirstLetters(ws[1..])
  }

  /** Reference definition: the characters of `s` that start a word, i.e. are not
      a space and come first or right after a space. `afterSpace` says whether the
      previous character was a space (or there was none). */
  function WordStarts(s: string, afterSpace: bool): string {
    if s == [] then []
    else (if s[0] != ' ' && afterSpace then [s[0]] else []) + WordStarts(s[1..], s[0] == ' ')
  }

  /** The first letters of the split pieces are exactly the word-start characters. */
  lemma {:induction false} FirstLettersAreWordStarts(s: string)
    ensures FirstLetters(Split(s)) == WordStarts(s, true)
    ensures FirstLetters(Split(s)[1..]) == WordStarts(s, false)
  {
    if s != [] {
      FirstLettersAreWordStarts(s[1..]);
      if s[0] == ' ' {
        assert Split(s)[1..] == Split(s[1..]);
      } else {
        var r := Split(s[1..]);
        assert Split(s)[1..] == r[1..];
        assert FirstLetters(Split(s)) == [s[0]] + FirstLetters(r[1..]);
        assert FirstLetters(r) == (if r[0] != [] then [r[0][0]] else []) + FirstLetters(r[1..]);
      }
    }
  }

  /** `toUpperCase` on one character: ASCII and Latin-1 letters with a one-character
      upper-case form. */
  function UpperChar(c: char): char {
    if 'a' <= c <= 'z' then (c as int - 32) as char
    else if 'à' <= c <= 'þ' && c != '÷' then (c as int - 32) as char
    else if c == 'ÿ' then 'Ÿ'
    else if c == 'µ' then 'Μ'
    else c
  }

  /** `toUpperCase` applied character by character. */
  function Upper(s: string): (r: string)
    ensures |r| == |s|
    ensures forall i :: 0 <= i < |s| ==> r[i] == UpperChar(s[i])
  {
    if s == [] then [] else [UpperChar(s[0])] + Upper(s[1..])
  }
}

=== FILE: upload.dfy ===
/** The certificate upload page (`src/pages/Upload.tsx`): the list of files
    waiting to be sent, its status transitions around a batch upload, and the
    per-category tiles. */
module Upload {
  import opened Wrappers
  import opened Records
  import opened Seqs

  // ---------------------------------------------------------------- the files

  /** What the page reads from a browser `File`. */
  datatype FileInfo = FileInfo(name: string, mime: string)

  datatype FileStatus = Pending | Uploading | Processing | Completed | Failed

  /** A queued file; `certificateId` is the document id the batch reply assigns. */
  datatype FileEntry = FileEntry(id: string, file: FileInfo, status: FileStatus, certificateId: Option<string>)

  const AllowedTypes: set<string> := {"application/pdf", "image/jpeg", "image/png", "image/jpg"}

  predicate Allowed(f: FileInfo) {
    f.mime in AllowedTypes
  }

  /** The accepted files as fresh pending entries; `mkId(i)` stands for the
      `Date.now()-Math.random()` id the page gives the `i`-th one. */
  function Stamp(fs: seq<FileInfo>, mkId: nat -> string): (es: seq<FileEntry>)
    ensures |es| == |fs|
    ensures forall i :: 0 <= i < |fs| ==> es[i] == FileEntry(mkId(i), fs[i], Pending, None)
  {
    seq(|fs|, i requires 0 <= i < |fs| => FileEntry(mkId(i), fs[i], Pending, None))
  }

  /** `handleFiles`: the files of an allowed type are appended, in order and as
      pending, after the ones already queued. No input, an empty input, or one
      whose every file is rejected leaves the list as it was. */
  function HandleFiles(files: seq<FileEntry>, input: Option<seq<FileInfo>>, mkId: nat -> string): (r: seq<FileEntry>)
    ensures input.None? ==> r == files
    ensures input.Some? ==> r == files + Stamp(Filter(input.value, Allowed), mkId)
    ensures input.Some? ==> |r| == |files| + Count(input.value, Allowed)
    ensures forall i :: |files| <= i < |r| ==> Allowed(r[i].file) && r[i].status == Pending
  {
    if input.None? || |input.value| == 0 then files
    else
      var accepted := Filter(input.value, Allowed);
      if |accepted| > 0 then files + Stamp(accepted, mkId) else files
  }

  /** `removeFile(id)`: every entry with that id goes; each other entry stays as
      often as it was queued, and in its place (see `RemoveFileDistributes`). */
  function RemoveFile(files: seq<FileEntry>, id: string): (r: seq<FileEntry>)
    ensures forall i :: 0 <= i < |r| ==> r[i].id != id && r[i] in files
    ensures forall e :: multiset(r)[e] == if e.id != id then multiset(files)[e] else 0
    ensures |r| <= |files|
  {
    var keep := (f: FileEntry) => f.id != id;
    forall e ensures multiset(Filter(files, keep))[e] == if e.id != id then multiset(files)[e] else 0 {
      FilterMultiset(files, keep, e);
    }
    Filter(files, keep)
  }

  /** Removal works on each part of the list separately, so the surviving entries
      keep their relative order; on a single entry it keeps or drops it by id. */
  lemma RemoveFileDistributes(a: seq<FileEntry>, b: seq<FileEntry>, e: FileEntry, id: string)
    ensures RemoveFile(a + b, id) == RemoveFile(a, id) + RemoveFile(b, id)
    ensures RemoveFile([e], id) == if e.id != id then [e] else []
  {
    FilterAppend(a, b, (f: FileEntry) => f.id != id);
  }

  /** Removing the single file just added under a fresh id restores the list. */
  lemma RemoveUndoesAdd(files: seq<FileEntry>, f: FileInfo, mkId: nat -> string)
    requires Allowed(f)
    requires forall i :: 0 <= i < |files| ==> files[i].id != mkId(0)
    ensures RemoveFile(HandleFiles(files, Some([f]), mkId), mkId(0)) == files
  {
    var keep := (e: FileEntry) => e.id != mkId(0);
    assert Filter([f], Allowed) == [f];
    var added := Stamp([f], mkId);
    FilterAppend(files, added, keep);
    FilterAll(files, keep);
    assert Filter(added, keep) == [];
  }

  // ------------------------------------------------------------ the upload

  datatype Page = Page(files: seq<FileEntry>, isUploading: bool)

  /** Start of `handleUpload`: nothing happens with no files; otherwise the page is
      uploading and every file is marked as such. */
  function StartUpload(p: Page): (r: Page)
    ensures |p.files| == 0 ==> r == p
    ensures |p.files| > 0 ==> r.isUploading
    ensures |r.files| == |p.files|
    ensures |p.files| > 0 ==> forall i :: 0 <= i < |r.files| ==> r.files[i] == p.files[i].(status := Uploading)
  {
    if |p.files| == 0 then p
    else Page(seq(|p.files|, i requires 0 <= i < |p.files| => p.files[i].(status := Uploading)), true)
  }

  /** One entry of the batch reply's `results`. */
  datatype UploadResult = UploadResult(status: Option<string>, documentId: Option<string>)

  /** The batch request's outcome: its `results`, or a thrown error. */
  datatype Outcome = Uploaded(results: seq<UploadResult>) | UploadFailed

  /** Status of file `i` after the reply: processing when its result says completed
      or processing, failed otherwise (including a missing result). */
  function StatusAfter(results: seq<UploadResult>, i: nat): FileStatus {
    if i < |results| && (results[i].status == Some("completed") || results[i].status == Some("processing"))
    then Processing else Failed
  }

  /** End of `handleUpload`: file `i` takes its status and document id from result
      `i`; a thrown error marks every file failed. The page is no longer uploading. */
  function FinishUpload(p: Page, outcome: Outcome): (r: Page)
    ensures !r.isUploading
    ensures |r.files| == |p.files|
    ensures forall i :: 0 <= i < |r.files| ==> r.files[i].id == p.files[i].id && r.files[i].file == p.files[i].file
    ensures outcome.UploadFailed? ==> forall i :: 0 <= i < |r.files| ==> r.files[i] == p.files[i].(status := Failed)
    ensures outcome.Uploaded? ==> forall i :: 0 <= i < |r.files| ==>
              (r.files[i].status == Processing <==>
                 i < |outcome.results| && outcome.results[i].status in {Some("completed"), Some("processing")})
    ensures outcome.Uploaded? ==> forall i :: 0 <= i < |r.files| ==>
              r.files[i].certificateId == (if i < |outcome.results| then outcome.results[i].documentId else None)
  {
    var fs := p.files;
    match outcome
    case UploadFailed =>
      Page(seq(|fs|, i requires 0 <= i < |fs| => fs[i].(status := Failed)), false)
    case Uploaded(results) =>
      Page(seq(|fs|, i requires 0 <= i < |fs| =>
             fs[i].(status := StatusAfter(results, i),
                    certificateId := if i < |results| then results[i].documentId else None)), false)
  }

  /** After a whole upload every file is either processing or failed, and the list
      still holds the same files. */
  lemma UploadSettlesEveryFile(p: Page, outcome: Outcome)
    requires |p.files| > 0
    ensures var r := FinishUpload(StartUpload(p), outcome);
            |r.files| == |p.files| && !r.isUploading &&
            forall i :: 0 <= i < |r.files| ==>
              r.files[i].id == p.files[i].id && r.files[i].status in {Processing, Failed}
  {
  }

  // ---------------------------------------------------------------- the tiles

  datatype Tile = Cursos | Monitoria | Ligas | Eventos | Publicacoes | Estagios | Pesquisa | Outros

  const KnownCategories: seq<string> := ["courses", "teaching_assistant", "events", "publications", "internships", "research"]

  /** Which certificates a tile counts. `Ligas` and `Eventos` both count `events`;
      `Outros` counts every category outside the six known ones, an absent one included. */
  predicate CountsTowards(c: Certificate, t: Tile) {
    match t
    case Cursos => c.category == Some("courses")
    case Monitoria => c.category == Some("teaching_assistant")
    case Ligas => c.category == Some("events")
    case Eventos => c.category == Some("events")
    case Publicacoes => c.category == Some("publications")
    case Estagios => c.category == Some("internships")
    case Pesquisa => c.category == Some("research")
    case Outros => c.category.None? || c.category.value !in KnownCategories
  }

  function TileCount(cs: seq<Certificate>, t: Tile): (n: nat)
    ensures n <= |cs|
  {
    Count(cs, (c: Certificate) => CountsTowards(c, t))
  }

  lemma TileCountCons(cs: seq<Certificate>, t: Tile)
    requires cs != []
    ensures TileCount(cs, t) == (if CountsTowards(cs[0], t) then 1 else 0) + TileCount(cs[1..], t)
  {
  }

  /** The seven distinct tiles (all but the duplicated `Ligas`) split the certificates:
      their counts add up to the number of certificates. */
  lemma {:induction false} TilesPartition(cs: seq<Certificate>)
    ensures TileCount(cs, Cursos) + TileCount(cs, Monitoria) + TileCount(cs, Eventos)
          + TileCount(cs, Publicacoes) + TileCount(cs, Estagios) + TileCount(cs, Pesquisa)
          + TileCount(cs, Outros) == |cs|
  {
    if cs != [] {
      TilesPartition(cs[1..]);
      TileCountCons(cs, Cursos);
      TileCountCons(cs, Monitoria);
      TileCountCons(cs, Eventos);
      TileCountCons(cs, Publicacoes);
      TileCountCons(cs, Estagios);
      TileCountCons(cs, Pesquisa);
      TileCountCons(cs, Outros);
    }
  }

  /** `Ligas` always shows the same count as `Eventos`. */
  lemma LigasMirrorsEventos(cs: seq<Certificate>)
    ensures TileCount(cs, Ligas) == TileCount(cs, Eventos)
  {
    FilterCongruent(cs, (c: Certificate) => CountsTowards(c, Ligas), (c: Certificate) => CountsTowards(c, Eventos));
  }

  // ----------------------------------------------------- category limits

  /** One category of the selected edict's rubric with the points already earned. */
  datatype RubricCategory = RubricCategory(name: string, maxPoints: real, current: real)

  datatype MaxStatus = MaxStatus(current: real, max: real, isMaxReached: bool)

  function FindCategory(cats: seq<RubricCategory>, name: string): (r: Option<RubricCategory>)
    ensures r.Some? ==> r.value in cats && r.value.name == name
    ensures r.None? <==> forall i :: 0 <= i < |cats| ==> cats[i].name != name
    ensures r.Some? ==> exists k :: 0 <= k < |cats| && cats[k] == r.value &&
                                    forall j :: 0 <= j < k ==> cats[j].name != name
  {
    if cats == [] then None
    else if cats[0].name == name then Some(cats[0])
    else
      var r := FindCategory(cats[1..], name);
      assert forall k :: 0 < k < |cats| ==> cats[k] == cats[1..][k - 1];
      r
  }

  /** `getCategoryMaxStatus`: nothing for an unknown category or when no edict is
      selected; otherwise the category's figures, the limit reached exactly when the
      points earned are at least the maximum. */
  function GetCategoryMaxStatus(rubric: seq<RubricCategory>, name: string, selectedEdict: Option<string>): (r: Option<MaxStatus>)
    ensures r.None? <==> !Truthy(selectedEdict) || forall i :: 0 <= i < |rubric| ==> rubric[i].name != name
    ensures r.Some? ==> exists k :: 0 <= k < |rubric| && rubric[k].name == name &&
                          (forall j :: 0 <= j < k ==> rubric[j].name != name) &&
                          r.value.current == rubric[k].current && r.value.max == rubric[k].maxPoints
    ensures r.Some? ==> (r.value.isMaxReached <==> r.value.current >= r.value.max)
  {
    var found := FindCategory(rubric, name);
    if found.None? || !Truthy(selectedEdict) then None
    else
      var c := found.value;
      Some(MaxStatus(c.current, c.maxPoints, c.current >= c.maxPoints))
  }

  /** Which edict is selected makes no difference, only whether one is: the limits
      come from the one rubric the page holds, read through `FindCategory`. */
  lemma MaxStatusIgnoresWhichEdict(rubric: seq<RubricCategory>, name: string, a: Option<string>, b: Option<string>)
    requires Truthy(a) && Truthy(b)
    ensures GetCategoryMaxStatus(rubric, name, a) == GetCategoryMaxStatus(rubric, name, b)
    ensures var r := GetCategoryMaxStatus(rubric, name, a);
            r.Some? <==> FindCategory(rubric, name).Some?
    ensures var r := GetCategoryMaxStatus(rubric, name, a);
            r.Some? ==> r.value.current == FindCategory(rubric, name).value.current &&
                        r.value.max == FindCategory(rubric, name).value.maxPoints
  {
  }
}

=== FILE: user_store.dfy ===
/** The domain data store (`src/contexts/UserContext.tsx`): fetching the user's
    certificates and normalising each record on arrival. */
module UserStore {
  import opened Wrappers
  import opened Records

  /** `{ ...c, status: c.validation_status || c.status || 'pending',
           ai_confidence: c.extraction_confidence || c.ai_confidence }`:
      the status prefers the validation status, then the generic status, then
      `pending`; the confidence prefers a non-zero extraction confidence. Every
      other field is carried over. */
  function Normalize(c: Certificate): (n: Certificate)
    ensures Truthy(c.validationStatus) ==> n.status == c.validationStatus
    ensures !Truthy(c.validationStatus) && Truthy(c.status) ==> n.status == c.status
    ensures !Truthy(c.validationStatus) && !Truthy(c.status) ==> n.status == Some("pending")
    ensures Truthy(n.status)
    ensures TruthyReal(c.extractionConfidence) ==> n.aiConfidence == c.extractionConfidence
    ensures !TruthyReal(c.extractionConfidence) ==> n.aiConfidence == c.aiConfidence
    ensures n == c.(status := n.status, aiConfidence := n.aiConfidence)
  {
    var status := if Truthy(c.validationStatus) then c.validationStatus
                  else if Truthy(c.status) then c.status
                  else Some("pending");
    var confidence := if TruthyReal(c.extractionConfidence) then c.extractionConfidence else c.aiConfidence;
    c.(status := status, aiConfidence := confidence)
  }

  /** Normalising an already normalised record changes nothing. */
  lemma NormalizeIdempotent(c: Certificate)
    ensures Normalize(Normalize(c)) == Normalize(c)
  {
  }

  /** The list-wide normalisation: one record in, one record out, order kept. */
  function NormalizeAll(cs: seq<Certificate>): (r: seq<Certificate>)
    ensures |r| == |cs|
    ensures forall i :: 0 <= i < |cs| ==> r[i] == Normalize(cs[i])
  {
    if cs == [] then [] else [Normalize(cs[0])] + NormalizeAll(cs[1..])
  }

  /** Normalising the list twice is the same as once. */
  lemma NormalizeAllIdempotent(cs: seq<Certificate>)
    ensures NormalizeAll(NormalizeAll(cs)) == NormalizeAll(cs)
  {
  }

  /** Outcome of `GET /certificates/`: the request threw, or it returned a body
      (`response.data`, possibly null). */
  datatype CertificatesReply = FetchFailed | Fetched(data: Option<seq<Certificate>>)

  /** `fetchCertificates`: the certificate list the store holds afterwards. A failure
      empties it; a null body counts as an empty list. */
  function FetchCertificates(reply: CertificatesReply): (r: seq<Certificate>)
    ensures reply.FetchFailed? ==> r == []
    ensures reply.Fetched? ==> |r| == |reply.data.GetOr([])|
    ensures reply.Fetched? ==> forall i :: 0 <= i < |r| ==> r[i] == Normalize(reply.data.GetOr([])[i])
    ensures forall i :: 0 <= i < |r| ==> Truthy(r[i].status)
  {
    match reply
    case FetchFailed => []
    case Fetched(data) => NormalizeAll(data.GetOr([]))
  }
}

=== FILE: validation.dfy ===
/** The validation page (`src/pages/Validation.tsx`): the queue of certificates
    awaiting review, the cursor that walks it, and the seven-field buffer the
    user edits. */
module Validation {
  import opened Wrappers
  import opened Records
  import opened Seqs
  import opened Counters

  // ---------------------------------------------------------------- the queue

  /** Awaiting review: status `pending`, `processing` or `needs_review`. */
  predicate AwaitsReview(c: Certificate) {
    c.status == Some("pending") || c.status == Some("processing") || c.status == Some("needs_review")
  }

  /** The certificates awaiting review, in list order. */
  function PendingQueue(cs: seq<Certificate>): (q: seq<Certificate>)
    ensures |q| <= |cs|
    ensures forall i :: 0 <= i < |q| ==> q[i] in cs && AwaitsReview(q[i])
    ensures forall i :: 0 <= i < |cs| && AwaitsReview(cs[i]) ==> cs[i] in q
  {
    Filter(cs, AwaitsReview)
  }

  /** The queue keeps the list's order: the queue of a concatenation is the
      concatenation of the queues. */
  lemma PendingQueueAppend(a: seq<Certificate>, b: seq<Certificate>)
    ensures PendingQueue(a + b) == PendingQueue(a) + PendingQueue(b)
  {
    FilterAppend(a, b, AwaitsReview);
  }

  /** Everything the dashboard counts as pending is in the review queue (which
      also holds `needs_review`), so the dashboard's count never exceeds the
      queue's length. */
  lemma DashboardPendingFitsQueue(cs: seq<Certificate>)
    ensures PendingCount(cs) <= |PendingQueue(cs)|
  {
    CountMonotone(cs, AwaitsValidation, AwaitsReview);
  }

  // --------------------------------------------------------------- the cursor

  /** `handleNext`: advance unless on the last certificate. */
  function Next(cursor: nat, len: nat): (c: nat)
    ensures cursor < len - 1 ==> c == cursor + 1
    ensures cursor >= len - 1 ==> c == cursor
  {
    if cursor < len - 1 then cursor + 1 else cursor
  }

  /** `handlePrevious`: step back unless on the first certificate. */
  function Previous(cursor: nat): (c: nat)
    ensures cursor > 0 ==> c == cursor - 1
    ensures cursor == 0 ==> c == 0
  {
    if cursor > 0 then cursor - 1 else cursor
  }

  /** Going back undoes a step forward, and a step forward undoes going back. */
  lemma NextPreviousInverse(cursor: nat, len: nat)
    ensures cursor < len - 1 ==> Previous(Next(cursor, len)) == cursor
    ensures 0 < cursor < len ==> Next(Previous(cursor), len) == cursor
  {
  }

  datatype Nav = Forward | Back

  /** The cursor after pressing the buttons in order. */
  function Navigate(cursor: nat, len: nat, presses: seq<Nav>): nat
    decreases |presses|
  {
    if presses == [] then cursor
    else
      var c := if presses[0] == Forward then Next(cursor, len) else Previous(cursor);
      Navigate(c, len, presses[1..])
  }

  /** Starting inside a non-empty queue, any sequence of presses stays inside it. */
  lemma {:induction false} NavigateInBounds(cursor: nat, len: nat, presses: seq<Nav>)
    requires cursor < len
    ensures Navigate(cursor, len, presses) < len
    decreases |presses|
  {
    if presses != [] {
      var c := if presses[0] == Forward then Next(cursor, len) else Previous(cursor);
      NavigateInBounds(c, len, presses[1..]);
    }
  }

  /** `handleConfirm` as written: with no current certificate nothing happens; when
      the approval fails the cursor stays; otherwise it advances as if the queue
      were unchanged, wrapping to the start from the last certificate when there
      is more than one. `len` is the length of the queue before the refresh. */
  function ConfirmAsWritten(cursor: nat, len: nat, approved: bool): (c: nat)
    ensures cursor >= len || !approved ==> c == cursor
    ensures cursor < len - 1 && approved ==> c == cursor + 1
    ensures cursor == len - 1 && approved && len > 1 ==> c == 0
    ensures cursor == len - 1 && approved && len <= 1 ==> c == cursor
  {
    if cursor >= len || !approved then cursor
    else if cursor < len - 1 then cursor + 1
    else if len > 1 then 0
    else cursor
  }

  /** The queue after the refresh that follows a successful approval: the approved
      certificate no longer awaits review and drops out, the others keep their order. */
  function WithoutAt(q: seq<Certificate>, i: nat): (r: seq<Certificate>)
    requires i < |q|
    ensures |r| == |q| - 1
    ensures forall k :: 0 <= k < i ==> r[k] == q[k]
    ensures forall k :: i <= k < |r| ==> r[k] == q[k + 1]
  {
    q[..i] + q[i + 1..]
  }

  /** As written, confirming any certificate but the last moves the cursor two
      places on in the refreshed queue: it skips the certificate right after the
      confirmed one, or falls off the end when that one was the last. */
  lemma ConfirmAsWrittenSkips(q: seq<Certificate>, i: nat)
    requires i < |q| - 1
    ensures ConfirmAsWritten(i, |q|, true) == i + 1
    ensures i + 1 == |WithoutAt(q, i)| || WithoutAt(q, i)[i + 1] == q[i + 2]
  {
  }

  /** A concrete instance: three queued certificates, the cursor on the second; after
      its approval the refreshed queue has two entries and the cursor points past them. */
  lemma ConfirmAsWrittenLeavesQueue(a: Certificate, b: Certificate, c: Certificate)
    ensures |WithoutAt([a, b, c], 1)| == 2
    ensures ConfirmAsWritten(1, 3, true) == 2
  {
  }

  /** `handleConfirm` corrected: after an approval the certificate that followed the
      confirmed one slides into the cursor's place, so the cursor stays (or wraps to
      the start when the confirmed certificate was the last). */
  function Confirm(cursor: nat, len: nat, approved: bool): (c: nat)
    ensures cursor >= len || !approved ==> c == cursor
    ensures cursor < len && approved ==> c <= cursor
  {
    if cursor >= len || !approved then cursor
    else if cursor < len - 1 then cursor
    else 0
  }

  /** In the refreshed queue the corrected cursor is in range whenever anything is
      left, and it shows the certificate that followed the confirmed one, or the
      first one after confirming the last. */
  lemma ConfirmShowsFollower(q: seq<Certificate>, i: nat)
    requires i < |q|
    ensures var r := WithoutAt(q, i);
            var c := Confirm(i, |q|, true);
            |r| > 0 ==> c < |r| && r[c] == (if i < |q| - 1 then q[i + 1] else q[0])
  {
  }

  // ---------------------------------------------------------- the field buffer

  datatype FieldKind = TextField | NumberField | DateField | SelectField

  datatype FieldValue = Text(s: string) | Number(n: real)

  datatype FieldConfig = FieldConfig(
    caption: string,
    value: FieldValue,
    confidence: real,
    kind: FieldKind,
    options: Option<seq<string>>)

  const CategoryOptions: seq<string> := ["Cursos", "Monitoria", "Eventos", "Publicações"]

  /** The seven labels, in display order. */
  const Labels: seq<string> := ["Título do Certificado", "Instituição", "Carga Horária (h)",
                                "Categoria", "Data Início", "Data Fim", "Data Emissão"]

  const Kinds: seq<FieldKind> := [TextField, TextField, NumberField, SelectField,
                                  DateField, DateField, DateField]

  /** A buffer of the shape the page edits: seven fields with the fixed labels and kinds. */
  predicate WellFormed(fields: seq<FieldConfig>) {
    |fields| == 7 &&
    forall i :: 0 <= i < 7 ==> fields[i].caption == Labels[i] && fields[i].kind == Kinds[i]
  }

  /** `updateField(index, value)`: a copy with entry `index`'s value replaced. An
      index outside the buffer throws (`undefined.value`), modelled as `None`. */
  function UpdateField(fields: seq<FieldConfig>, index: int, v: FieldValue): (r: Option<seq<FieldConfig>>)
    ensures r.Some? <==> 0 <= index < |fields|
    ensures r.Some? ==> |r.value| == |fields|
    ensures r.Some? ==> r.value[index].value == v
    ensures r.Some? ==> r.value[index] == fields[index].(value := v)
    ensures r.Some? ==> forall k :: 0 <= k < |fields| && k != index ==> r.value[k] == fields[k]
  {
    if 0 <= index < |fields| then Some(fields[index := fields[index].(value := v)]) else None
  }

  /** Editing never changes the buffer's shape. */
  lemma UpdateKeepsShape(fields: seq<FieldConfig>, index: int, v: FieldValue)
    requires WellFormed(fields)
    ensures var r := UpdateField(fields, index, v); r.Some? ==> WellFormed(r.value)
  {
  }

  /** Of two edits to the same field the last one wins; writing back the current value
      changes nothing. */
  lemma UpdateLastWins(fields: seq<FieldConfig>, index: int, v: FieldValue, w: FieldValue)
    requires 0 <= index < |fields|
    ensures UpdateField(UpdateField(fields, index, v).value, index, w) == UpdateField(fields, index, w)
    ensures UpdateField(fields, index, fields[index].value) == Some(fields)
  {
    var once := fields[index := fields[index].(value := v)];
    assert once[index := once[index].(value := w)] == fields[index := fields[index].(value := w)];
    assert fields[index].(value := fields[index].value) == fields[index];
    assert fields[index := fields[index]] == fields;
  }

  /** A date field's text: the ISO day of a present date (`toISOString().split('T')[0]`),
      or `''` when the date is absent. `isoDay` is the date library; `None` is the
      `RangeError` an unparsable date raises. */
  function DateText(d: Option<string>, isoDay: string -> Option<string>): (r: Option<string>)
    ensures !Truthy(d) ==> r == Some("")
    ensures Truthy(d) ==> r == isoDay(d.value)
  {
    if Truthy(d) then isoDay(d.value) else Some("")
  }

  /** The seven fields for a certificate, or `None` when a date conversion throws.
      Missing text defaults to `''`, missing hours to 0, a missing category to
      `Cursos`; every confidence is the extraction confidence, or 0.5 when that is
      absent or zero. */
  function MapCertificate(cert: Certificate, isoDay: string -> Option<string>): (r: Option<seq<FieldConfig>>)
    ensures r.Some? <==> DateText(cert.startDate, isoDay).Some? && DateText(cert.endDate, isoDay).Some?
                         && DateText(cert.issueDate, isoDay).Some?
    ensures r.Some? ==> WellFormed(r.value)
    ensures r.Some? ==> forall i :: 0 <= i < 7 ==>
              r.value[i].confidence == (if TruthyReal(cert.extractionConfidence) then cert.extractionConfidence.value else 0.5)
    ensures r.Some? ==> r.value[0].value == Text(Or(cert.title, ""))
    ensures r.Some? ==> r.value[1].value == Text(Or(cert.institution, ""))
    ensures r.Some? ==> r.value[2].value == Number(OrReal(cert.workloadHours, 0.0))
    ensures r.Some? ==> r.value[3].value == Text(Or(cert.category, "Cursos"))
    ensures r.Some? ==> r.value[3].options == Some(CategoryOptions)
    ensures r.Some? ==> r.value[4].value == Text(DateText(cert.startDate, isoDay).value)
    ensures r.Some? ==> r.value[5].value == Text(DateText(cert.endDate, isoDay).value)
    ensures r.Some? ==> r.value[6].value == Text(DateText(cert.issueDate, isoDay).value)
  {
    var start := DateText(cert.startDate, isoDay);
    var end := DateText(cert.endDate, isoDay);
    var issue := DateText(cert.issueDate, isoDay);
    if start.None? || end.None? || issue.None? then None
    else
      var conf := OrReal(cert.extractionConfidence, 0.5);
      Some([
        FieldConfig(Labels[0], Text(Or(cert.title, "")), conf, TextField, None),
        FieldConfig(Labels[1], Text(Or(cert.institution, "")), conf, TextField, None),
        FieldConfig(Labels[2], Number(OrReal(cert.workloadHours, 0.0)), conf, NumberField, None),
        FieldConfig(Labels[3], Text(Or(cert.category, "Cursos")), conf, SelectField, Some(CategoryOptions)),
        FieldConfig(Labels[4], Text(start.value), conf, DateField, None),
        FieldConfig(Labels[5], Text(end.value), conf, DateField, None),
        FieldConfig(Labels[6], Text(issue.value), conf, DateField, None)
      ])
  }

  /** `find(c => c.id === certId)`: the first certificate with that id. */
  function FindById(cs: seq<Certificate>, id: string): (r: Option<Certificate>)
    ensures r.Some? ==> r.value in cs && r.value.id == id
    ensures r.None? <==> forall k :: 0 <= k < |cs| ==> cs[k].id != id
    ensures r.Some? ==> exists k :: 0 <= k < |cs| && cs[k] == r.value &&
                                    forall j :: 0 <= j < k ==> cs[j].id != id
  {
    if cs == [] then None
    else if cs[0].id == id then Some(cs[0])
    else
      var r := FindById(cs[1..], id);
      assert r.Some? ==> exists k :: 0 <= k < |cs| - 1 && cs[1..][k] == r.value &&
                                     forall j :: 0 <= j < k ==> cs[1..][j].id != id;
      assert forall k :: 0 < k < |cs| ==> cs[k] == cs[1..][k - 1];
      r
  }

  /** Outcome of the certificate request `loadCertificateData` makes: the response
      body (`None` when it is falsy), or a thrown error. */
  datatype LoadReply = Listed(data: Option<seq<Certificate>>) | LoadFailed

  /** `loadCertificateData(certId)`: the buffer for the certificate with that id; a
      failed request, an unknown id or a date that fails to convert leave the buffer
      as it was. */
  function LoadCertificateData(fields: seq<FieldConfig>, reply: LoadReply, certId: string,
                               isoDay: string -> Option<string>): (r: seq<FieldConfig>)
    ensures reply.LoadFailed? ==> r == fields
    ensures reply.Listed? && FindById(reply.data.GetOr([]), certId).None? ==> r == fields
    ensures reply.Listed? && FindById(reply.data.GetOr([]), certId).Some? ==>
              var m := MapCertificate(FindById(reply.data.GetOr([]), certId).value, isoDay);
              r == (if m.Some? then m.value else fields)
    ensures WellFormed(fields) ==> WellFormed(r)
  {
    match reply
    case LoadFailed => fields
    case Listed(data) =>
      match FindById(data.GetOr([]), certId)
      case None => fields
      case Some(cert) =>
        match MapCertificate(cert, isoDay)
        case None => fields
        case Some(m) => m
  }

  // ---------------------------------------------------------- confidence tiers

  /** The badge colours: emerald, blue, amber. */
  datatype Tier = High | Medium | Low

  /** `getConfidenceBadge`: at least 0.9 is high, at least 0.8 medium, anything
      below is low. */
  function TierOf(confidence: real): (t: Tier)
    ensures t == High <==> confidence >= 0.9
    ensures t == Medium <==> 0.8 <= confidence < 0.9
    ensures t == Low <==> confidence < 0.8
  {
    if confidence >= 0.9 then High else if confidence >= 0.8 then Medium else Low
  }

  function Rank(t: Tier): nat {
    match t
    case Low => 0
    case Medium => 1
    case High => 2
  }

  /** A field is highlighted when its confidence is below 0.8. */
  predicate IsLowConfidence(confidence: real) {
    confidence < 0.8
  }

  /** The highlight and the amber badge mark the same fields, and a higher confidence
      never earns a lower tier. */
  lemma TiersAgreeAndAreMonotone(c: real, d: real)
    ensures IsLowConfidence(c) <==> TierOf(c) == Low
    ensures c <= d ==> Rank(TierOf(c)) <= Rank(TierOf(d))
  {
  }
}

=== FILE: wrappers.dfy ===
/** Option, and the JavaScript truthiness rules the front end relies on when it
    writes `a || b` or `if (a)` on values that may be absent. */
module Wrappers {

  /** A value that may be absent (`undefined` or `null` in the front end). */
  datatype Option<+T> = None | Some(value: T) {

    /** The value, or `default` when absent. */
    function GetOr(default: T): T {
      match this
      case Some(v) => v
      case None => default
    }
  }

  /** A string is truthy exactly when it is present and non-empty. */
  predicate Truthy(o: Option<string>) {
    o.Some? && o.value != ""
  }

  /** A number is truthy exactly when it is present and non-zero (NaN is not modelled). */
  predicate TruthyReal(o: Option<real>) {
    o.Some? && o.value != 0.0
  }

  /** An integer is truthy exactly when it is present and non-zero. */
  predicate TruthyInt(o: Option<int>) {
    o.Some? && o.value != 0
  }

  /** `o || fallback` for a string `o` and a string literal `fallback`. */
  function Or(o: Option<string>, fallback: string): string {
    if Truthy(o) then o.value else fallback
  }

  /** `o || fallback` for a number `o` and a numeric literal `fallback`. */
  function OrReal(o: Option<real>, fallback: real): real {
    if TruthyReal(o) then o.value else fallback
  }
}
